=== FILE: README.md ===
# pg-table-observer, modelled in Dafny

`PgTableObserver` watches PostgreSQL tables. It installs one trigger
function per channel and one trigger per observed table. The trigger
function serialises each changed row to JSON and sends it with `pg_notify`.
Every notification carries a header: it reads `hash:page_count:page_index:text`.
A short message is one page (`hash:1:1:text`); a long one is cut into
several pages. The observer listens on the channel,
puts the pages back together, builds a change event and calls every
callback registered for the table. A debounce wrapper (`trigger`) collapses
bursts of changes into at most two calls per time window: an optional
leading call, off by default, and a trailing call.

The database and the clock are reduced to state and events:
- an "installed" flag for the trigger function;
- the set of installed trigger names `channel_table`;
- an explicit "timer expired" event.

All operations are pure functions over immutable datatypes.

| file | module | what it models |
|---|---|---|
| `common.dfy` | `Common` | `Option`, `Result`, callbacks as identities, duplicate-freedom |
| `text.dfy` | `Text` | `indexOf`, ASCII `toLowerCase`, decimal numerals, PostgreSQL `substr` |
| `wire.dfy` | `Wire` | the splitter inside `triggerSql` and the header parser of `_processNotification` |
| `reassembly.dfy` | `Reassembly` | the `payloads` buffer of `_processNotification` |
| `events.dfy` | `Events` | `_processPayload`: the change event and the fan-out to callbacks |
| `subscriptions.dfy` | `Subscriptions` | `table_cbs`, the table triggers, `notify` and the `stop` of its handle |
| `debounce.dfy` | `Debounce` | the option defaults and the `(timer, hit)` state machine of `trigger` |
| `observer.dfy` | `Observer` | the whole object: `_init`, `notify`, `stop`, `cleanup`, the listener, `trigger` |

How the JavaScript is read:
- **Header fields.** `page_count` and `pageNr` are decimal strings; `>` and `-` convert them to numbers.
- **Pending slots.** Each slot of a pending message is one of:
  - `Missing`: `undefined` from `_.range(...).map(...)`;
  - `Hole`: an array hole made by assigning past the end;
  - `Filled`.

  `indexOf(undefined)` finds only `Missing` slots. `join('')` prints both
  `Missing` and `Hole` slots as empty text. A fragment numbered 0 writes
  property `-1`, which neither of them sees.
- **Diff comparison.** JSON values are compared with `===`. Arrays and
  objects made by `JSON.parse` are never `===`, so such fields always
  appear in `update`.
- **Callbacks** are identities (`nat`). `indexOf` and `_.pull` compare them by identity.

Behaviour of the code that a reader might not expect, and which the model
keeps:
- The UPDATE diff covers only the keys of the new row; a key present only
  in the old row never appears in `update`.
- An empty table list is accepted.
- `notify` initialises the observer before it checks the tables against
  the registry and for repeats. So a first call rejected by those checks
  still installs the function and opens the listener. (The type checks of
  its arguments come before initialisation.)
- `trigger_first` defaults to true but is never read. The leading-call
  branch tests the misspelled key `tigger_first`. So the default debounce
  makes one trailing call per window (`Debounce.BurstWithDefaults`). The
  two-call behaviour needs the misspelled key (`Debounce.BurstWithLeading`).
- `stop()` cannot be called twice safely (see Findings).
- Pages are cut by characters, not bytes (see Findings).

## Model

| member | source | states |
|---|---|---|
| Text.IndexOf | src/PgTableObserver.js:73-76 | the position found is the first `:` at or after the start position; -1 means there is none |
| Text.ParseToDecimal | src/PgTableObserver.js:377 | a page number printed by the trigger function reads back as the same number |
| Text.Lower | src/PgTableObserver.js:176 | `toLowerCase` keeps the length, lowers every ASCII capital to its small letter and leaves every other character as it is |
| Wire.PagesRoundTrip | src/PgTableObserver.js:371-378 | the splitter makes `len/7950 + 1` pages of at most 7950 characters each; together they spell the message; the last page holds `len % 7950` characters, so it is empty when the length is a multiple of 7950 |
| Wire.SplitFields | src/PgTableObserver.js:73-81 | the first three colons delimit hash, page count and page number; everything after the third colon, colons included, is the text; the fields put back together give the notification |
| Wire.Pages | src/PgTableObserver.js:372-378 | the splitter makes `len/7950 + 1` page texts, each of at most 7950 characters |
| Wire.Encode | src/PgTableObserver.js:377 | a notification `hash:count:index:text` the trigger function builds (hash without colons) is well formed and parses back into exactly its four parts, whatever the text contains |
| Wire.Parse | src/PgTableObserver.js:78-81 | a well-formed notification reads as the hash, two decimal numerals for the counters, and the text, joined by three colons; the hash holds no colon |
| Wire.PageCanExceedNotifyLimit | src/PgTableObserver.js:371-378 | a first page of 7950 characters `é` takes 15900 bytes, over the 8000-byte payload limit of `NOTIFY` |
| Wire.BytePages | src/PgTableObserver.js:371-378 | corrected splitter: at least one page, each page at most 7950 bytes in UTF-8, pages concatenate to the message |
| Reassembly.Place | src/PgTableObserver.js:89 | writing page `n` fills slot `n-1`, grows the array with holes when `n` is past its end, and leaves every other slot alone; page 0 changes nothing |
| Reassembly.IndexOfMissing | src/PgTableObserver.js:91 | `indexOf(undefined)` from a start position answers -1 or the first `undefined` slot at or after the start; a hole is skipped |
| Reassembly.IndexOfMissingFails | src/PgTableObserver.js:91 | `indexOf(undefined)` answers -1 exactly when no slot from the start position on is `undefined`; a hole never matches |
| Reassembly.Complete | src/PgTableObserver.js:91 | a message is complete exactly when `indexOf(undefined)` over its slots answers -1 |
| Reassembly.Join | src/PgTableObserver.js:95 | `join('')` concatenates the slots from the first to the last, an `undefined` slot or a hole adding nothing |
| Reassembly.Advance | src/PgTableObserver.js:86-97 | for one hash, the page is written into the existing slots (or `page_count` fresh ones); the message comes out, and the entry is deleted, exactly when no slot is then `undefined`, and it is those slots joined; otherwise the entry is kept with the new page |
| Reassembly.Ingest | src/PgTableObserver.js:83-104 | a one-page message is returned at once with the buffer unchanged; a multi-page one returns nothing while a slot is still `undefined`, returns the joined slots and deletes its entry once none is; entries of other hashes are untouched |
| Reassembly.ProcessNotification | src/PgTableObserver.js:67-105 | on a well-formed notification, page count 1 returns the text after the third colon and changes nothing; other hashes are never read or changed |
| Reassembly.IngestOverwrite | src/PgTableObserver.js:89 | a repeated page of a pending message overwrites its slot: a page received twice acts like the second copy alone |
| Reassembly.IngestCommutes | src/PgTableObserver.js:86-97 | fragments of two different hashes may arrive in either order with the same outputs and the same final buffer |
| Reassembly.ReassembleAnyOrder | src/PgTableObserver.js:83-97 | feeding all pages of one message in any order yields nothing until the last, then the pages joined in page order, and leaves the buffer as it was |
| Reassembly.SplitReassembleRoundTrip | src/PgTableObserver.js:372-378 | splitting a message with the trigger function's arithmetic and reassembling the pages in any order gives back the message |
| Reassembly.ByteSplitReassembleRoundTrip | src/PgTableObserver.js:372-378 | the same round trip holds for the corrected byte-bounded splitter |
| Reassembly.NotificationRoundTrip | src/PgTableObserver.js:375-379 | the notification texts the trigger function sends are well formed and, parsed and reassembled in any order, give back the message |
| Events.StrictEquals | src/PgTableObserver.js:133 | two looked-up values are `===` exactly when they are the same scalar, or both `undefined`; arrays and objects never are |
| Events.Diff | src/PgTableObserver.js:131-136 | `update` names only keys of the new row, each as `{from: old, to: new}`; a key of the new row is left out exactly when the old row holds the very same scalar; so a key new to the row or holding an array or object is always in it |
| Events.BuildEvent | src/PgTableObserver.js:111-140 | the event carries the table and the first new row; for UPDATE it carries the old row and `update` holds exactly the keys of the new row whose value is not `===` the old one, each as `{from, to}`; otherwise only the flag `op.toLowerCase()` is set |
| Events.Dispatch | src/PgTableObserver.js:113-147 | no callback runs for an unobserved table; otherwise every callback of the table runs once, in registration order, with the same event |
| Events.DiffPatchesOldRow | src/PgTableObserver.js:131-136 | applying `update` to the old row gives every field of the new row; a field left out of `update` held the very same scalar before |
| Events.CompositeAlwaysChanged | src/PgTableObserver.js:133 | an array or object field is always reported as changed |
| Events.UpdateExample | src/PgTableObserver.js:123-136 | `{a:1,b:2}` updated to `{a:1,b:3}` reports exactly `b: {from: 2, to: 3}` |
| Events.InsertDeleteEvents | src/PgTableObserver.js:138-140 | INSERT and DELETE events set `insert` or `delete` and carry neither `old` nor `update` |
| Subscriptions.TriggerNameInjective | src/PgTableObserver.js:205 | different tables of one channel get different trigger names |
| Subscriptions.Pull | src/PgTableObserver.js:228 | `_.pull` removes every occurrence of the callback, keeps every other callback as often as it occurred, and changes nothing when the callback is absent |
| Subscriptions.PullConcat | src/PgTableObserver.js:228 | `_.pull` keeps the surviving callbacks in order: pulling from two joined lists pulls from each in turn |
| Subscriptions.PullSingle | src/PgTableObserver.js:228 | a one-callback list loses its callback exactly when it is the one pulled |
| Subscriptions.PullNoDuplicates | src/PgTableObserver.js:228 | pulling a callback from a list without repeats leaves a list without repeats |
| Subscriptions.Normalize | src/PgTableObserver.js:157-176 | a bare string becomes a one-element list; every name is lower-cased |
| Subscriptions.FirstObserved | src/PgTableObserver.js:185-189 | finds the first requested table already observed with this callback, and nothing exactly when there is none |
| Subscriptions.AddOne | src/PgTableObserver.js:204-218 | a new table gets `[callback]` and its trigger; an observed one gets the callback appended; the trigger set stays in step with the tables |
| Subscriptions.AddAll | src/PgTableObserver.js:203-221 | after registering on a list of tables, each of them holds the callback and every other table is unchanged |
| Subscriptions.AddAllEffect | src/PgTableObserver.js:203-221 | registering on distinct tables appends the callback to exactly those tables |
| Subscriptions.Subscribe | src/PgTableObserver.js:183-223 | `notify` is rejected exactly when a table is already observed with this callback (named in the error, checked first) or a table repeats (the duplicate error, when no table is already observed); on success the handle holds the lower-cased tables |
| Subscriptions.SubscribeEffect | src/PgTableObserver.js:203-219 | a successful `notify` appends the callback to each named table, creating missing entries, and leaves the other tables alone |
| Subscriptions.SubscribeValid | src/PgTableObserver.js:203-219 | a successful `notify` keeps exactly one trigger `channel_t` per observed table `t`, with no callback listed twice on a table |
| Subscriptions.RemoveOne | src/PgTableObserver.js:228-236 | `stop` on one table pulls the callback and deletes the entry when it became empty; other tables are untouched |
| Subscriptions.RemoveOneValid | src/PgTableObserver.js:228-236 | dropping a table's trigger together with its last callback keeps the triggers in step with the tables |
| Subscriptions.Stop | src/PgTableObserver.js:224-240 | the corrected `stop()`: afterwards none of its tables holds the callback, and every other table is unchanged |
| Subscriptions.StopEffect | src/PgTableObserver.js:224-240 | `stop()` pulls the callback from each of its tables, deletes the entries left empty and touches no other table |
| Subscriptions.StopValid | src/PgTableObserver.js:227-237 | `stop()` keeps exactly one trigger `channel_t` per observed table `t` |
| Subscriptions.StopAsWritten | src/PgTableObserver.js:227-237 | as written, `stop()` leaves the registry as the corrected one does; when it does not throw, every one of its tables was registered |
| Subscriptions.StopAsWrittenThrows | src/PgTableObserver.js:228-230 | as written, `stop()` on distinct tables throws exactly when one of them is no longer registered |
| Subscriptions.SubscribeThenStop | src/PgTableObserver.js:203-237 | `notify` followed by its `stop()` restores the registry and the installed triggers |
| Subscriptions.StopIdempotent | src/PgTableObserver.js:224-240 | with absent tables skipped, a second `stop()` changes nothing |
| Subscriptions.StopTwiceThrows | src/PgTableObserver.js:228-230 | as written, a second `stop()` of a subscription that created a table's entry throws |
| Debounce.Resolve | src/PgTableObserver.js:257-271 | each option takes its default (200 ms, reduce on, `trigger_first` on) exactly when it is absent; the leading call is taken exactly when `tigger_first` is true |
| Debounce.ResolveDefaults | src/PgTableObserver.js:257-259 | without options: 200 ms, reduced predicate calls, `trigger_first` on, and yet no leading call |
| Debounce.LeadingIgnoresTriggerFirst | src/PgTableObserver.js:257-271 | the leading call depends only on the misspelled key `tigger_first`, never on `trigger_first`; given delay and reduce settings are kept |
| Debounce.Step | src/PgTableObserver.js:267-306 | a match with no timer starts one (calling at once only when leading); a match in a window without a due call makes one due without restarting the timer; expiry calls back exactly when a call is due and clears the timer; `stop` clears it; with `reduce_triggers` the predicate runs once per change, and not at all when a call is already due; without it, a change the first two branches do not take asks the predicate a second time |
| Debounce.AtMostTwicePerWindow | src/PgTableObserver.js:270-291 | over any run of events, the callback runs at most twice per window opened, and at most once when there is no leading call |
| Debounce.ChangesInWindow | src/PgTableObserver.js:288-291 | inside a window, changes never call back and never restart the timer; they only make a trailing call due |
| Debounce.WindowFires | src/PgTableObserver.js:270-286 | one whole window makes the leading call when enabled, and the trailing call exactly when there was no leading call or another match arrived |
| Debounce.StopSilences | src/PgTableObserver.js:301-305 | after the wrapper's `stop()`, a pending timeout makes no call |
| Debounce.BurstWithDefaults | src/PgTableObserver.js:257-286 | three matches in one window with default options give one call |
| Debounce.BurstWithLeading | src/PgTableObserver.js:270-286 | the same burst with `tigger_first` set gives two calls |
| Observer.New | src/PgTableObserver.js:4-14 | the constructor gives an uninitialised observer of the channel that satisfies the lifecycle invariant |
| Observer.Init | src/PgTableObserver.js:18-27 | a second initialisation is refused; the first names the function `tblobs_<channel>`, opens the listener and keeps the callbacks and the buffer |
| Observer.InitTwiceFails | src/PgTableObserver.js:19-21 | initialising twice fails with "Already initialized" |
| Observer.InitGood | src/PgTableObserver.js:18-27 | initialisation keeps the lifecycle invariant |
| Observer.Notify | src/PgTableObserver.js:168-223 | `notify` leaves the observer initialised even when it rejects; it succeeds exactly when no lower-cased table is already observed with the callback and none repeats, and then appends the callback to exactly those tables; a rejection with no table already observed is the duplicate error; a rejection leaves the callbacks as they were |
| Observer.NotifyGood | src/PgTableObserver.js:154-223 | `notify` keeps the lifecycle invariant |
| Observer.NotifyRejectedUnchanged | src/PgTableObserver.js:185-195 | on an initialised observer a rejected `notify` changes nothing |
| Observer.StopHandle | src/PgTableObserver.js:224-240 | `stop()` changes only the registry |
| Observer.StopHandleGood | src/PgTableObserver.js:224-240 | `stop()` keeps the lifecycle invariant |
| Observer.NotifyThenStop | src/PgTableObserver.js:203-239 | on an initialised observer, `notify` followed by its `stop()` restores the observer |
| Observer.Cleanup | src/PgTableObserver.js:312-329 | `cleanup()` forgets the function, closes the listener and empties the buffer and the registry; when initialised, the cascade removes every table trigger |
| Observer.CleanupIdempotent | src/PgTableObserver.js:312-329 | `cleanup()` twice is `cleanup()` once, and it does nothing to a new observer |
| Observer.CleanupResets | src/PgTableObserver.js:312-329 | from a good state `cleanup()` gives back a new observer, which can be initialised again |
| Observer.Receive | src/PgTableObserver.js:46-52 | a notification for another channel, or with no listener open, is ignored; otherwise it goes to the reassembler |
| Observer.ReceiveGood | src/PgTableObserver.js:46-48 | receiving a notification keeps the lifecycle invariant |
| Observer.Deliver | src/PgTableObserver.js:107-148 | an assembled change reaches exactly the callbacks of its table, in order |
| Observer.Trigger | src/PgTableObserver.js:244-296 | `trigger` subscribes a fresh inner callback like `notify`, so it can be rejected only for repeated tables, and starts the wrapper idle with the resolved options |
| Observer.StopTrigger | src/PgTableObserver.js:298-307 | the wrapper's `stop()` clears the timer, so a later expiry makes no call, and stops the inner handle |

## Left out

- Database I/O and the SQL text (`db.none`, `db.connect`, `LISTEN`, `pg_notify`, `notify_conn.done()`). They become the installed flag, the listener flag and the trigger-name set. Every database call is taken to succeed.
- Observer.Init: does not model the rollback on a failed database call (lines 29-32). That path runs an un-awaited `cleanup()` and re-throws.
- The JSON text itself: `row_to_json`, `JSON.parse`, and the handler calling `_processPayload` with the raw string after a parse error (lines 53-59). `Observer.Deliver` takes an already decoded payload.
- `md5`: the hash is an opaque string.
- `setTimeout`/`clearTimeout` and the delay. Time is not modelled; the expiry of the pending timeout is an event.
- The `Promise.all` concurrency of `notify` and `stop`. Each call is atomic and sequential, so the interleavings between its `await`s are not modelled.
- The argument type checks (`typeof tables`, `typeof callback`, `typeof triggers`). Their `TypeError`s depend on JavaScript's dynamic types, which the model's types already exclude.
- Wire.SplitFields: requires a well-formed notification (three colons and decimal header fields). The code does not detect malformed input; it silently misparses it.
- Text.Lower: only ASCII letters are lowered, not the full Unicode `toLowerCase`.
- Events.StrictEquals: numbers are compared as exact decimals. `JSON.parse` rounds them to doubles, so two numerals that round to the same double (9007199254740993 and 9007199254740992) are `===` in the code but differ here.
- Events.Diff: for the same reason, a numeric field whose old and new numerals round to one double is reported as changed here and not in the code.
- Events.BuildEvent: inherits the exact comparison of numbers above; an UPDATE that changes a number only beyond double precision has that field in `update` here.
- Events.Dispatch: callbacks are taken not to throw and not to change the registry during dispatch. In the code `forEach` stops at the first callback that throws, and a callback that calls its own handle's `stop()` pulls itself from the array being walked, so the next callback is skipped. Callbacks are also taken not to modify the event object, which the code shares among all callbacks of the table (line 146), so a mutation is seen by every later callback, and by the debounce predicate `triggers`. Observer.Deliver inherits this.
- Reassembly.Place: page numbers and counts are unbounded naturals. In JavaScript they are doubles: an index of 2^32 - 1 or more is a plain property that `indexOf` and `join` ignore, `_.range` throws a RangeError for a count of 2^32 or more, and numerals beyond 2^53 round. The trigger function never sends such headers.
- Keys inherited from `Object.prototype` (`"constructor"`, `"toString"`, ...). For them `in` answers true in `table_cbs` and `payloads`; here maps hold only what was stored.
- A handle kept across `cleanup()`. In the code it still mutates the old `table_cbs` object and can drop a trigger a later `notify` created again.
- Debounce.Step: the predicate's verdict is one value per change. A predicate that answers differently when asked twice about the same change is not modelled.
- Debounce.Step: `callback` and `triggers` are taken not to throw. In the code, if the trailing `callback()` in the timeout (line 283) throws, line 285 never clears `timer` and `hit` stays true; no later change can open a window or make a call due, so the wrapper never calls back again until `stop()`. A throwing leading `callback()` (line 272) leaves no timer, so the next match tries again. A throwing `triggers` propagates out of the change handler into dispatch.
- The UTF-8 length of the notification header (hash, counters, colons). The corrected splitter bounds only the page text, to 7950 bytes.

## Findings

| source | as written | input that shows it | evidently intended | confidence | as-written member | corrected member |
|---|---|---|---|---|---|---|
| src/PgTableObserver.js:228-230 | `stop()` reads `table_cbs[table].length` after an earlier `stop()` deleted that entry; `_.pull(undefined, cb)` does not throw, but `.length` of `undefined` does | `notify('t', f)` on an observer with no subscription on `t`, then `stop()` twice: the second call rejects with a TypeError | `stop()` is safe to call again and skips tables that are no longer registered | high; not executed | Subscriptions.StopTwiceThrows | Subscriptions.StopIdempotent |
| src/PgTableObserver.js:371-378 | pages are cut at 7950 characters (`char_length`, `substr`), but `NOTIFY` payloads must be shorter than 8000 bytes | a changed row with a text column holding 8000 copies of `é` (two bytes each in UTF-8): the first page is 7950 characters, nearly all `é`, well over 15000 bytes, and `pg_notify` raises an error | pages whose encoded size fits the payload limit | medium; not executed | Wire.PageCanExceedNotifyLimit | Reassembly.ByteSplitReassembleRoundTrip |

=== FILE: common.dfy ===
/** Small shared vocabulary: optional values, results and duplicate-freedom. */
module Common {

  /** JavaScript's `undefined`-or-value, and the failure-free result of a lookup. */
  datatype Option<T> = None | Some(value: T)

  /** Outcome of an operation that throws in the JavaScript. */
  datatype Result<T, E> = Success(value: T) | Failure(error: E)

  /** A callback function, compared by identity (`indexOf`, `_.pull`). */
  type CallbackId = nat

  /** `m[k]`, with `undefined` for an absent key. */
  function Get<K, V>(m: map<K, V>, k: K): Option<V> {
    if k in m then Some(m[k]) else None
  }

  /** `o === undefined ? d : o`. */
  function OrElse<T>(o: Option<T>, d: T): T {
    if o.Some? then o.value else d
  }

  predicate NoDuplicates<T(==)>(s: seq<T>) {
    forall i, j :: 0 <= i < j < |s| ==> s[i] != s[j]
  }

  function Max(a: int, b: int): int {
    if a <= b then b else a
  }

  function Min(a: int, b: int): int {
    if a <= b then a else b
  }
}

=== FILE: debounce.dfy ===
/** The debounce wrapper `trigger`: a state machine over "a timer is
    running" and "a trailing call is due", driven by changes (with the
    predicate's verdict), timer expiry and `stop`. Time itself is not
    modelled: the expiry of the one pending timer is an event. */
module Debounce {
  import opened Common

  /** The keys of the caller's `options` object that the wrapper reads or
      defaults. `tiggerFirst` is the misspelled key the leading branch
      actually tests; `triggerFirst` is defaulted but never read. */
  datatype UserOptions = UserOptions(
    triggerDelay: Option<nat>,
    reduceTriggers: Option<bool>,
    triggerFirst: Option<bool>,
    tiggerFirst: Option<bool>)

  const NoOptions: UserOptions := UserOptions(None, None, None, None)

  /** Options after defaulting; `leading` is the condition of the
      leading-call branch. */
  datatype Options = Options(delay: nat, reduce: bool, triggerFirst: bool, leading: bool)

  const DefaultDelay: nat := 200

  /** The three `=== undefined` defaults, and the leading branch bound to
      the misspelled key (only `true` is truthy here). */
  function Resolve(u: UserOptions): (o: Options)
    ensures o.delay == (if u.triggerDelay.Some? then u.triggerDelay.value else DefaultDelay)
    ensures o.reduce <==> u.reduceTriggers != Some(false)
    ensures o.triggerFirst <==> u.triggerFirst != Some(false)
    ensures o.leading <==> u.tiggerFirst == Some(true)
  {
    Options(OrElse(u.triggerDelay, DefaultDelay), OrElse(u.reduceTriggers, true),
            OrElse(u.triggerFirst, true), u.tiggerFirst == Some(true))
  }

  /** Given nothing, the wrapper waits 200 ms, reduces predicate calls and
      records `trigger_first` as on, yet takes no leading call. */
  lemma ResolveDefaults()
    ensures Resolve(NoOptions) == Options(200, true, true, false)
  {
  }

  /** Whatever `trigger_first` says, the leading call depends only on the
      misspelled key, and a caller's own settings are kept. */
  lemma LeadingIgnoresTriggerFirst(u: UserOptions, b: bool)
    ensures Resolve(u.(triggerFirst := Some(b))).leading == Resolve(u).leading
    ensures Resolve(u).leading <==> u.tiggerFirst == Some(true)
    ensures u.triggerDelay.Some? ==> Resolve(u).delay == u.triggerDelay.value
    ensures u.reduceTriggers.Some? ==> Resolve(u).reduce == u.reduceTriggers.value
  {
  }

  /** `timer` (set while a timeout is pending) and `hit`; both start
      `undefined`, i.e. false. */
  datatype State = State(timer: bool, hit: bool)

  const Idle: State := State(false, false)

  /** A change delivered by the subscription, with what `triggers(change)`
      returns for it; the expiry of the pending timeout; the wrapper's
      `stop()`. */
  datatype Event = Change(matches: bool) | Expire | Stop

  /** The next state, whether the user callback ran, and how many times
      `triggers` was evaluated. */
  datatype Outcome = Outcome(state: State, fired: bool, evaluations: nat)

  /** Whether the event opens a window: a match while no timer runs. */
  predicate Starts(s: State, e: Event) {
    e.Change? && !s.timer && e.matches
  }

  function Step(o: Options, s: State, e: Event): (out: Outcome)
    ensures out.fired ==> (Starts(s, e) && o.leading) || (e.Expire? && s.timer && s.hit)
    ensures Starts(s, e) ==> out.state.timer && out.state.hit == !o.leading && out.fired == o.leading
    ensures e.Change? ==> out.state.timer == (s.timer || e.matches)
    ensures e.Change? && s.timer ==> out.state.hit == (s.hit || e.matches)
    ensures e.Expire? || e.Stop? ==> !out.state.timer && out.state.hit == s.hit
    ensures e.Expire? ==> (out.fired <==> s.timer && s.hit)
    ensures out.evaluations <= 2
    ensures o.reduce ==> out.evaluations == (if e.Change? && !(s.timer && s.hit) then 1 else 0)
    ensures !o.reduce ==> (out.evaluations ==
      if !e.Change? then 0
      else if s.timer && s.hit then 1
      else if Starts(s, e) || (s.timer && e.matches) then 1
      else 2)
  {
    match e
    case Change(m) =>
      if !s.timer && m then
        Outcome(State(true, !o.leading), o.leading, 1)
      else if s.timer && !s.hit && m then
        Outcome(s.(hit := true), false, 1)
      else
        var asked := if s.timer && s.hit then 0 else 1;
        Outcome(s, false, if o.reduce then asked else asked + 1)
    case Expire =>
      // A cleared timeout never runs; the model lets its expiry do nothing.
      Outcome(s.(timer := false), s.timer && s.hit, 0)
    case Stop =>
      Outcome(s.(timer := false), false, 0)
  }

  /** The state after a run of events, how many times the user callback
      ran, and how many windows were opened. */
  datatype Trace = Trace(state: State, fires: nat, windows: nat)

  function Run(o: Options, s: State, es: seq<Event>): Trace
    decreases |es|
  {
    if |es| == 0 then Trace(s, 0, 0)
    else
      var out := Step(o, s, es[0]);
      var rest := Run(o, out.state, es[1..]);
      Trace(rest.state, rest.fires + (if out.fired then 1 else 0),
            rest.windows + (if Starts(s, es[0]) then 1 else 0))
  }

  function Credit(s: State): nat {
    if s.timer then 1 else 0
  }

  /** At most two calls per window (one leading, one trailing), and at
      most one without the leading call; a window already open at the
      start may still owe its trailing call. */
  lemma {:induction false} AtMostTwicePerWindow(o: Options, s: State, es: seq<Event>)
    ensures var t := Run(o, s, es);
      t.fires + Credit(t.state) <= (if o.leading then 2 else 1) * t.windows + Credit(s)
    decreases |es|
  {
    if |es| > 0 {
      AtMostTwicePerWindow(o, Step(o, s, es[0]).state, es[1..]);
    }
  }

  function Changes(ms: seq<bool>): (es: seq<Event>)
    ensures |es| == |ms|
    ensures forall i :: 0 <= i < |ms| ==> es[i] == Change(ms[i])
  {
    seq(|ms|, i requires 0 <= i < |ms| => Change(ms[i]))
  }

  /** Inside a window changes never call back nor restart the timer; they
      only make a trailing call due. */
  lemma {:induction false} ChangesInWindow(o: Options, hit: bool, ms: seq<bool>)
    ensures Run(o, State(true, hit), Changes(ms)) == Trace(State(true, hit || true in ms), 0, 0)
    decreases |ms|
  {
    if |ms| > 0 {
      assert Changes(ms)[1..] == Changes(ms[1..]);
      assert true in ms <==> ms[0] || true in ms[1..];
      ChangesInWindow(o, hit || ms[0], ms[1..]);
    }
  }

  lemma {:induction false} RunAppend(o: Options, s: State, a: seq<Event>, b: seq<Event>)
    ensures var ta := Run(o, s, a); var tb := Run(o, ta.state, b);
      Run(o, s, a + b) == Trace(tb.state, ta.fires + tb.fires, ta.windows + tb.windows)
    decreases |a|
  {
    if |a| == 0 {
      assert a + b == b;
    } else {
      assert (a + b)[0] == a[0] && (a + b)[1..] == a[1..] + b;
      RunAppend(o, Step(o, s, a[0]).state, a[1..], b);
    }
  }

  /** One whole window, from idle: the opening match, the changes that
      arrive before the timeout, then the timeout. The callback runs once
      up front when leading, and once at the end exactly when a match
      came in the window or the opening one was not answered at once. */
  lemma WindowFires(o: Options, ms: seq<bool>)
    ensures var t := Run(o, Idle, [Change(true)] + Changes(ms) + [Expire]);
      && t.windows == 1
      && t.fires == (if o.leading then 1 else 0) + (if !o.leading || true in ms then 1 else 0)
      && !t.state.timer
  {
    var s1 := State(true, !o.leading);
    assert Run(o, Idle, [Change(true)]) == Trace(s1, if o.leading then 1 else 0, 1);
    ChangesInWindow(o, !o.leading, ms);
    var s2 := State(true, !o.leading || true in ms);
    assert Run(o, s2, [Expire]) == Trace(State(false, s2.hit), if s2.hit then 1 else 0, 0);
    RunAppend(o, Idle, [Change(true)], Changes(ms));
    RunAppend(o, Idle, [Change(true)] + Changes(ms), [Expire]);
  }

  /** `stop()` cancels the pending timeout: no call can follow it. */
  lemma StopSilences(o: Options, s: State, es: seq<Event>)
    requires forall i :: 0 <= i < |es| ==> !es[i].Change?
    ensures Run(o, s, [Stop] + es).fires == 0
  {
    var s1 := State(false, s.hit);
    assert ([Stop] + es)[1..] == es;
    NoChangeNoFire(o, s1, es);
  }

  lemma {:induction false} NoChangeNoFire(o: Options, s: State, es: seq<Event>)
    requires !s.timer
    requires forall i :: 0 <= i < |es| ==> !es[i].Change?
    ensures Run(o, s, es).fires == 0 && !Run(o, s, es).state.timer
    decreases |es|
  {
    if |es| > 0 {
      NoChangeNoFire(o, Step(o, s, es[0]).state, es[1..]);
    }
  }

  /** Three matching changes inside one window with the options as
      shipped: a single, trailing call. */
  lemma BurstWithDefaults()
    ensures Run(Resolve(NoOptions), Idle, [Change(true), Change(true), Change(true), Expire]).fires == 1
  {
  }

  /** The same burst with the misspelled key set: a leading and a trailing
      call. */
  lemma BurstWithLeading()
    ensures var o := Resolve(NoOptions.(tiggerFirst := Some(true)));
      Run(o, Idle, [Change(true), Change(true), Change(true), Expire]).fires == 2
  {
  }
}

=== FILE: events.dfy ===
/** `_processPayload`: turning an assembled message into the parameter
    object handed to every callback of its table. */
module Events {
  import opened Common
  import opened Text

  /** A value produced by `JSON.parse`. */
  datatype Json =
    | JNull
    | JBool(b: bool)
    | JNumber(n: real)
    | JString(s: string)
    | JArray(items: seq<Json>)
    | JObject(fields: map<string, Json>)

  predicate IsScalar(v: Json) {
    !v.JArray? && !v.JObject?
  }

  /** `a === b` between two values looked up in parsed rows (`None` is
      `undefined`). Arrays and objects come out of `JSON.parse` as fresh
      objects, so they are never identical to anything. */
  predicate StrictEquals(a: Option<Json>, b: Option<Json>)
    ensures StrictEquals(a, b) <==> a == b && (a.None? || IsScalar(a.value))
  {
    match (a, b)
    case (None, None) => true
    case (Some(x), Some(y)) => IsScalar(x) && x == y
    case _ => false
  }

  type Row = map<string, Json>

  /** `{ from: old[key], to: row[key] }`. */
  datatype FieldChange = FieldChange(from: Option<Json>, to: Json)

  /** The parsed message `{ table, op, data, old_data }`. */
  datatype Payload = Payload(table: string, op: string, data: seq<Row>, oldData: seq<Row>)

  /** The callback parameter: `table`, `row`, and for UPDATE `old` and
      `update`, otherwise the flag `op.toLowerCase()` set to true. */
  datatype ChangeEvent = ChangeEvent(
    table: string,
    row: Row,
    oldRow: Option<Row>,
    update: Option<map<string, FieldChange>>,
    flag: Option<string>)

  /** The trigger function's shape: `data` (and, for UPDATE, `old_data`) is
      a one-row `json_agg`. */
  predicate WellShaped(p: Payload) {
    |p.data| >= 1 && (p.op == "UPDATE" ==> |p.oldData| >= 1)
  }

  /** The fields of `Object.keys(row)` whose value is `!==` the old one. */
  function Diff(prev: Row, row: Row): (d: map<string, FieldChange>)
    ensures d.Keys <= row.Keys
    ensures forall key :: key in d ==> d[key] == FieldChange(Get(prev, key), row[key])
    ensures forall key :: key in row && key !in d ==> key in prev && prev[key] == row[key] && IsScalar(row[key])
    ensures forall key :: key in row && key in prev && prev[key] == row[key] && IsScalar(row[key]) ==> key !in d
    ensures forall key :: key in row && (key !in prev || !IsScalar(row[key])) ==> key in d
  {
    map key | key in row && !StrictEquals(Some(row[key]), Get(prev, key)) :: FieldChange(Get(prev, key), row[key])
  }

  function BuildEvent(p: Payload): (e: ChangeEvent)
    requires WellShaped(p)
    ensures e.table == p.table && e.row == p.data[0]
    ensures p.op == "UPDATE" ==> e.oldRow == Some(p.oldData[0]) && e.flag.None? && e.update.Some?
    ensures p.op == "UPDATE" ==> forall key :: key in e.update.value <==>
      key in p.data[0] && !StrictEquals(Some(p.data[0][key]), Get(p.oldData[0], key))
    ensures p.op == "UPDATE" ==> forall key :: key in e.update.value ==>
      e.update.value[key] == FieldChange(Get(p.oldData[0], key), p.data[0][key])
    ensures p.op != "UPDATE" ==> e.oldRow.None? && e.update.None? && e.flag == Some(Lower(p.op))
  {
    var row := p.data[0];
    if p.op == "UPDATE" then
      var prev := p.oldData[0];
      ChangeEvent(p.table, row, Some(prev), Some(Diff(prev, row)), None)
    else
      ChangeEvent(p.table, row, None, None, Some(Lower(p.op)))
  }

  /** One callback invocation. */
  datatype Call = Call(callback: CallbackId, event: ChangeEvent)

  /** The callbacks of the message's table, in list order, each with the
      same event; nothing when the table is not observed. */
  function Dispatch(tableCbs: map<string, seq<CallbackId>>, p: Payload): (calls: seq<Call>)
    requires WellShaped(p)
    ensures p.table !in tableCbs ==> calls == []
    ensures p.table in tableCbs ==> |calls| == |tableCbs[p.table]|
    ensures p.table in tableCbs ==> forall i :: 0 <= i < |calls| ==>
      calls[i] == Call(tableCbs[p.table][i], BuildEvent(p))
  {
    if p.table in tableCbs then
      var cbs := tableCbs[p.table];
      seq(|cbs|, i requires 0 <= i < |cbs| => Call(cbs[i], BuildEvent(p)))
    else []
  }

  // ---------------------------------------------------------------------
  // What the diff promises

  /** The old row with the changes applied. */
  function Apply(prev: Row, changes: map<string, FieldChange>): Row {
    map key | key in prev.Keys + changes.Keys :: if key in changes then changes[key].to else prev[key]
  }

  /** Applying an UPDATE's `update` to its `old` row reproduces every field
      of the new row, and a field is left out of `update` only when its old
      value is the very same scalar. */
  lemma DiffPatchesOldRow(prev: Row, row: Row)
    ensures forall key :: key in row ==> key in Apply(prev, Diff(prev, row)) && Apply(prev, Diff(prev, row))[key] == row[key]
    ensures forall key :: key in row && key !in Diff(prev, row) ==> key in prev && prev[key] == row[key] && IsScalar(row[key])
    ensures forall key :: key in Diff(prev, row) ==> Diff(prev, row)[key].from == Get(prev, key)
  {
  }

  /** A field holding an array or object is reported as changed on every
      UPDATE, even when its content is the same. */
  lemma CompositeAlwaysChanged(prev: Row, row: Row, key: string)
    requires key in row && !IsScalar(row[key])
    ensures key in Diff(prev, row)
  {
  }

  /** `{a: 1, b: 2}` updated to `{a: 1, b: 3}` reports exactly `b`. */
  lemma UpdateExample()
    ensures var prev := map["a" := JNumber(1.0), "b" := JNumber(2.0)];
      var row := map["a" := JNumber(1.0), "b" := JNumber(3.0)];
      var e := BuildEvent(Payload("t", "UPDATE", [row], [prev]));
      e.update == Some(map["b" := FieldChange(Some(JNumber(2.0)), JNumber(3.0))])
  {
    var prev := map["a" := JNumber(1.0), "b" := JNumber(2.0)];
    var row := map["a" := JNumber(1.0), "b" := JNumber(3.0)];
    assert !StrictEquals(Some(row["b"]), Get(prev, "b"));
    assert StrictEquals(Some(row["a"]), Get(prev, "a"));
    assert Diff(prev, row) == map["b" := FieldChange(Some(JNumber(2.0)), JNumber(3.0))];
  }

  /** INSERT and DELETE events carry their lower-cased flag and neither
      `old` nor `update`. */
  lemma InsertDeleteEvents(p: Payload)
    requires WellShaped(p) && (p.op == "INSERT" || p.op == "DELETE")
    ensures BuildEvent(p).oldRow.None? && BuildEvent(p).update.None?
    ensures p.op == "INSERT" ==> BuildEvent(p).flag == Some("insert")
    ensures p.op == "DELETE" ==> BuildEvent(p).flag == Some("delete")
  {
    assert forall i :: 0 <= i < 6 ==> Lower("INSERT")[i] == "insert"[i];
    assert Lower("INSERT") == "insert";
    assert forall i :: 0 <= i < 6 ==> Lower("DELETE")[i] == "delete"[i];
    assert Lower("DELETE") == "delete";
  }
}

=== FILE: observer.dfy ===
/** The observer object itself: its lifecycle flags (`trigger_func`, the
    listening connection), the reassembly buffer and the registry, with
    the database reduced to "the trigger function is installed" and the
    trigger set held by the registry. */
module Observer {
  import opened Common
  import Wire
  import Reassembly
  import Events
  import Subscriptions
  import Debounce

  datatype Observer = Observer(
    channel: string,
    triggerFunc: Option<string>,   // `trigger_func`; set exactly while initialised
    listening: bool,               // `notify_conn` is open and listening
    payloads: Reassembly.Pending,
    registry: Subscriptions.Registry)

  /** The constructor: a fresh observer of `channel`, not yet initialised;
      it already satisfies the lifecycle invariant. */
  function New(channel: string): (o: Observer)
    ensures o.channel == channel && o.triggerFunc.None? && Good(o)
  {
    Observer(channel, None, false, map[], Subscriptions.Empty)
  }

  /** `'tblobs_' + channel`. */
  function FunctionName(channel: string): string {
    "tblobs_" + channel
  }

  /** The lifecycle invariant: uninitialised means nothing installed,
      buffered or observed; initialised means the function is named after
      the channel and the listener is open; the registry is always valid. */
  ghost predicate Good(o: Observer) {
    && (o.triggerFunc.None? ==> !o.listening && o.payloads == map[] && o.registry == Subscriptions.Empty)
    && (o.triggerFunc.Some? ==> o.triggerFunc.value == FunctionName(o.channel) && o.listening)
    && Subscriptions.Valid(o.channel, o.registry)
  }

  datatype InitError = AlreadyInitialized

  /** `_init`: refuse a second initialisation; otherwise name and install
      the function (the cascading drop of an older one removes the
      triggers that depended on it) and open the listener. */
  function Init(o: Observer): (r: Result<Observer, InitError>)
    ensures o.triggerFunc.Some? <==> r.Failure?
    ensures r.Success? ==> r.value.triggerFunc == Some(FunctionName(o.channel)) && r.value.listening
    ensures r.Success? ==> r.value.registry.tableCbs == o.registry.tableCbs && r.value.payloads == o.payloads
  {
    if o.triggerFunc.Some? then Failure(AlreadyInitialized)
    else Success(o.(triggerFunc := Some(FunctionName(o.channel)), listening := true,
                    registry := o.registry.(triggers := {})))
  }

  lemma InitTwiceFails(o: Observer)
    requires Init(o).Success?
    ensures Init(Init(o).value) == Failure(AlreadyInitialized)
  {
  }

  lemma InitGood(o: Observer)
    requires Good(o) && o.triggerFunc.None?
    ensures Good(Init(o).value)
  {
    assert Subscriptions.TriggersFor(o.channel, {}) == {};
  }

  /** What `notify` leaves behind: the observer, which is initialised even
      when the call is rejected, and the handle or the rejection. */
  datatype NotifyOutcome = NotifyOutcome(observer: Observer, result: Result<Subscriptions.Handle, Subscriptions.SubscribeError>)

  /** `notify(tables, callback)`: initialise on first use, then validate
      and register. */
  function Notify(o: Observer, tables: Subscriptions.Tables, cb: CallbackId): (r: NotifyOutcome)
    ensures r.observer.triggerFunc.Some? && r.observer.listening == (o.triggerFunc.None? || o.listening)
    ensures r.observer.payloads == o.payloads
    ensures r.result.Failure? ==> r.observer.registry.tableCbs == o.registry.tableCbs
    ensures r.result.Success? ==> r.result.value == Subscriptions.Handle(Subscriptions.Normalize(tables), cb)
    ensures var names := Subscriptions.Normalize(tables);
      r.result.Success? <==>
        (forall i :: 0 <= i < |names| ==> !Subscriptions.Observes(o.registry, names[i], cb)) && NoDuplicates(names)
    ensures var names := Subscriptions.Normalize(tables);
      r.result.Failure? && (forall i :: 0 <= i < |names| ==> !Subscriptions.Observes(o.registry, names[i], cb)) ==>
        r.result.error == Subscriptions.DuplicateTables
    ensures var names := Subscriptions.Normalize(tables);
      r.result.Success? ==> forall t :: (Subscriptions.Entry(r.observer.registry, t) ==
        if t in names then Subscriptions.Entry(o.registry, t) + [cb] else Subscriptions.Entry(o.registry, t))
  {
    var o1 := if o.triggerFunc.None? then Init(o).value else o;
    assert o1.registry.tableCbs == o.registry.tableCbs;
    assert forall t :: Subscriptions.Entry(o1.registry, t) == Subscriptions.Entry(o.registry, t);
    match Subscriptions.Subscribe(o1.channel, o1.registry, tables, cb)
    case Failure(e) => NotifyOutcome(o1, Failure(e))
    case Success((reg, h)) =>
      Subscriptions.SubscribeEffect(o1.channel, o1.registry, tables, cb);
      NotifyOutcome(o1.(registry := reg), Success(h))
  }

  lemma NotifyGood(o: Observer, tables: Subscriptions.Tables, cb: CallbackId)
    requires Good(o)
    ensures Good(Notify(o, tables, cb).observer)
  {
    var o1 := if o.triggerFunc.None? then Init(o).value else o;
    if o.triggerFunc.None? {
      InitGood(o);
    }
    if Subscriptions.Subscribe(o1.channel, o1.registry, tables, cb).Success? {
      Subscriptions.SubscribeValid(o1.channel, o1.registry, tables, cb);
    }
  }

  /** A rejected `notify` on an initialised observer changes nothing. */
  lemma NotifyRejectedUnchanged(o: Observer, tables: Subscriptions.Tables, cb: CallbackId)
    requires Good(o) && o.triggerFunc.Some?
    requires Notify(o, tables, cb).result.Failure?
    ensures Notify(o, tables, cb).observer == o
  {
  }

  /** The handle's `stop()`, by its effect on the registry. This is the
      effect the `stop()` as written shares with the corrected one
      (`Subscriptions.StopAsWritten(..).0 == Subscriptions.Stop(..)`); the
      TypeError a second call raises is reported by
      `Subscriptions.StopAsWritten`, not here. */
  function StopHandle(o: Observer, h: Subscriptions.Handle): (r: Observer)
    ensures r.triggerFunc == o.triggerFunc && r.listening == o.listening && r.payloads == o.payloads
    ensures r.registry == Subscriptions.Stop(o.channel, o.registry, h)
  {
    o.(registry := Subscriptions.Stop(o.channel, o.registry, h))
  }

  lemma StopHandleGood(o: Observer, h: Subscriptions.Handle)
    requires Good(o) && o.triggerFunc.Some?
    ensures Good(StopHandle(o, h))
  {
    Subscriptions.StopValid(o.channel, o.registry, h);
  }

  /** `notify` then its `stop` on an initialised observer: back where it
      started. */
  lemma NotifyThenStop(o: Observer, tables: Subscriptions.Tables, cb: CallbackId)
    requires Good(o) && o.triggerFunc.Some?
    requires Notify(o, tables, cb).result.Success?
    ensures StopHandle(Notify(o, tables, cb).observer, Notify(o, tables, cb).result.value) == o
  {
    Subscriptions.SubscribeThenStop(o.channel, o.registry, tables, cb);
  }

  /** `cleanup()`: when initialised, drop the function (cascading to every
      table trigger) and forget its name; close the listener; then empty
      the buffer and the registry. */
  function Cleanup(o: Observer): (r: Observer)
    ensures r.triggerFunc.None? && !r.listening && r.payloads == map[] && r.registry.tableCbs == map[]
    ensures o.triggerFunc.Some? ==> r.registry.triggers == {}
    ensures r.channel == o.channel
  {
    var triggers := if o.triggerFunc.Some? then {} else o.registry.triggers;
    Observer(o.channel, None, false, map[], Subscriptions.Registry(map[], triggers))
  }

  /** `cleanup()` is safe to repeat and does nothing to a new observer. */
  lemma CleanupIdempotent(o: Observer)
    ensures Cleanup(Cleanup(o)) == Cleanup(o)
    ensures Cleanup(New(o.channel)) == New(o.channel)
  {
  }

  /** From a good state, `cleanup()` returns the observer to the state the
      constructor gives, so it can be initialised again. */
  lemma CleanupResets(o: Observer)
    requires Good(o)
    ensures Cleanup(o) == New(o.channel)
    ensures Init(Cleanup(o)).Success?
  {
    if o.triggerFunc.None? {
      assert o.registry.triggers == {};
    }
  }

  /** The notification listener up to the complete message: ignored when
      no listener is open or the notification is for another channel;
      otherwise a fragment for the reassembler. */
  function Receive(o: Observer, channel: string, raw: string): (r: (Observer, Option<string>))
    requires o.listening && channel == o.channel ==> Wire.WellFormed(raw)
    ensures !(o.listening && channel == o.channel) ==> r == (o, None)
    ensures r.0.triggerFunc == o.triggerFunc && r.0.registry == o.registry && r.0.listening == o.listening
    ensures o.listening && channel == o.channel ==>
      (r.0.payloads, r.1) == Reassembly.Ingest(o.payloads, Wire.Parse(raw))
  {
    if !(o.listening && channel == o.channel) then (o, None)
    else
      var (payloads, msg) := Reassembly.ProcessNotification(o.payloads, raw);
      (o.(payloads := payloads), msg)
  }

  lemma ReceiveGood(o: Observer, channel: string, raw: string)
    requires Good(o)
    requires o.listening && channel == o.channel ==> Wire.WellFormed(raw)
    ensures Good(Receive(o, channel, raw).0)
  {
  }

  /** `_processPayload` against the observer's registry: the callbacks of
      the payload's table, in registration order, each with the event. */
  function Deliver(o: Observer, p: Events.Payload): (calls: seq<Events.Call>)
    requires Events.WellShaped(p)
    ensures p.table !in o.registry.tableCbs ==> calls == []
    ensures p.table in o.registry.tableCbs ==>
      |calls| == |o.registry.tableCbs[p.table]| &&
      forall i :: 0 <= i < |calls| ==>
        calls[i] == Events.Call(o.registry.tableCbs[p.table][i], Events.BuildEvent(p))
  {
    Events.Dispatch(o.registry.tableCbs, p)
  }

  /** A debounced subscription: its `notify` handle and the wrapper's own
      timer state. */
  datatype Debounced = Debounced(handle: Subscriptions.Handle, options: Debounce.Options, state: Debounce.State)

  /** `trigger(tables, triggers, callback, options)`: resolve the options
      and subscribe the wrapper's inner callback, idle. */
  function Trigger(o: Observer, tables: Subscriptions.Tables, inner: CallbackId, u: Debounce.UserOptions): (r: (Observer, Result<Debounced, Subscriptions.SubscribeError>))
    requires forall t :: inner !in Subscriptions.Entry(o.registry, t)
    ensures r.0 == Notify(o, tables, inner).observer
    ensures r.1.Failure? ==> r.1.error == Subscriptions.DuplicateTables
    ensures r.1.Success? <==> Notify(o, tables, inner).result.Success?
    ensures r.1.Success? ==> r.1.value.state == Debounce.Idle && r.1.value.options == Debounce.Resolve(u)
  {
    Subscriptions.FreshNotObserved(o.registry, Subscriptions.Normalize(tables), inner);
    var n := Notify(o, tables, inner);
    match n.result
    case Failure(e) => (n.observer, Failure(e))
    case Success(h) => (n.observer, Success(Debounced(h, Debounce.Resolve(u), Debounce.Idle)))
  }

  /** The wrapper's `stop()`: cancel the pending timeout, then the inner
      handle's `stop()`. */
  function StopTrigger(o: Observer, d: Debounced): (r: (Observer, Debounced))
    ensures !r.1.state.timer
    ensures r.0 == StopHandle(o, d.handle)
    ensures Debounce.Run(d.options, r.1.state, [Debounce.Expire]).fires == 0
  {
    var out := Debounce.Step(d.options, d.state, Debounce.Stop);
    (StopHandle(o, d.handle), d.(state := out.state))
  }
}

=== FILE: reassembly.dfy ===
/** `_processNotification`: the per-hash buffer that pieces multi-page
    messages back together. */
module Reassembly {
  import opened Common
  import opened Text
  import opened Wire

  /** One array element of `payloads[hash]`: `undefined`, a hole left by
      writing past the end, or a page text. */
  datatype Slot = Missing | Hole | Filled(text: string)

  /** `this.payloads`: hash -> slots of the message still being assembled. */
  type Pending = map<string, seq<Slot>>

  /** `_.range(page_count).map(() => undefined)`. */
  function Fresh(n: nat): seq<Slot> {
    seq(n, _ => Missing)
  }

  /** `slots[pageNr - 1] = text` on a JavaScript array: index -1 is a
      property that `indexOf` and `join` ignore, an index past the end
      grows the array with holes. */
  function Place(slots: seq<Slot>, pageIndex: nat, text: string): (r: seq<Slot>)
    ensures pageIndex == 0 ==> r == slots
    ensures pageIndex >= 1 ==> |r| == Max(|slots|, pageIndex) && r[pageIndex - 1] == Filled(text)
    ensures forall j :: 0 <= j < |slots| && j != pageIndex - 1 ==> r[j] == slots[j]
    ensures forall j :: |slots| <= j < |r| && j != pageIndex - 1 ==> r[j] == Hole
  {
    if pageIndex == 0 then slots
    else if pageIndex <= |slots| then slots[pageIndex - 1 := Filled(text)]
    else slots + seq(pageIndex - 1 - |slots|, _ => Hole) + [Filled(text)]
  }

  /** `slots.indexOf(undefined, from)`: the search visits only the
      elements the array has, so a hole is never found even though reading
      it gives `undefined`. */
  function IndexOfMissing(slots: seq<Slot>, from: nat): (r: int)
    ensures r == -1 || from <= r < |slots|
    ensures r != -1 ==> slots[r] == Missing && forall j :: from <= j < r ==> slots[j] != Missing
    decreases |slots| - from
  {
    if from >= |slots| then -1
    else if slots[from] == Missing then from
    else IndexOfMissing(slots, from + 1)
  }

  /** The search fails exactly when no element from `from` on is `undefined`. */
  lemma {:induction false} IndexOfMissingFails(slots: seq<Slot>, from: nat)
    ensures IndexOfMissing(slots, from) == -1 <==> forall j :: from <= j < |slots| ==> slots[j] != Missing
    decreases |slots| - from
  {
    if from < |slots| && slots[from] != Missing {
      IndexOfMissingFails(slots, from + 1);
    }
  }

  /** No slot is `undefined`; holes do not count. */
  predicate Complete(slots: seq<Slot>)
    ensures Complete(slots) <==> IndexOfMissing(slots, 0) == -1
  {
    IndexOfMissingFails(slots, 0);
    forall j :: 0 <= j < |slots| ==> slots[j] != Missing
  }

  function SlotText(s: Slot): string {
    if s.Filled? then s.text else ""
  }

  /** `slots.join('')`: holes and `undefined` join as the empty string. */
  function Join(slots: seq<Slot>): (r: string)
    ensures |slots| == 0 ==> r == ""
    ensures |slots| > 0 ==> r == SlotText(slots[0]) + Join(slots[1..])
    decreases |slots|
  {
    var texts := seq(|slots|, j requires 0 <= j < |slots| => SlotText(slots[j]));
    assert |slots| > 0 ==> texts[1..] == seq(|slots| - 1, j requires 0 <= j < |slots| - 1 => SlotText(slots[1..][j]));
    Concat(texts)
  }

  /** The hash's slots, or `page_count` fresh ones when it has no entry. */
  function Opened(entry: Option<seq<Slot>>, pageCount: nat): seq<Slot> {
    OrElse(entry, Fresh(pageCount))
  }

  /** Write back one hash's entry; `None` deletes it. */
  function Store(pending: Pending, h: string, entry: Option<seq<Slot>>): Pending {
    if entry.Some? then pending[h := entry.value] else pending - {h}
  }

  /** A multi-page fragment against its own hash's entry: fill the slot, and
      hand back the joined message (dropping the entry) once no slot is
      missing. */
  function Advance(entry: Option<seq<Slot>>, f: Fragment): (r: (Option<seq<Slot>>, Option<string>))
    ensures r.1.None? <==> r.0.Some?
    ensures r.0.Some? ==> !Complete(r.0.value)
    ensures f.pageIndex >= 1 && r.0.Some? ==>
      f.pageIndex <= |r.0.value| && r.0.value[f.pageIndex - 1] == Filled(f.text)
    ensures var filled := Place(Opened(entry, f.pageCount), f.pageIndex, f.text);
      && (r.1.Some? <==> Complete(filled))
      && (r.1.Some? ==> r.1.value == Join(filled))
      && (r.0.Some? ==> r.0.value == filled)
  {
    var filled := Place(Opened(entry, f.pageCount), f.pageIndex, f.text);
    if Complete(filled) then (None, Some(Join(filled))) else (Some(filled), None)
  }

  /** One fragment arrives. A single-page message is returned as is and
      the buffer is untouched; otherwise the fragment fills its slot, and
      the message is returned (and its entry deleted) only once no slot is
      missing. Entries of other hashes are neither read nor changed. */
  function Ingest(pending: Pending, f: Fragment): (r: (Pending, Option<string>))
    ensures f.pageCount <= 1 ==> r == (pending, Some(f.text))
    ensures forall h :: h != f.hash ==> Get(r.0, h) == Get(pending, h)
    ensures f.pageCount > 1 && r.1.None? ==> f.hash in r.0 && !Complete(r.0[f.hash])
    ensures f.pageCount > 1 && r.1.Some? ==> f.hash !in r.0
    ensures f.pageCount > 1 && f.pageIndex >= 1 && r.1.None? ==>
      f.pageIndex <= |r.0[f.hash]| && r.0[f.hash][f.pageIndex - 1] == Filled(f.text)
    ensures f.pageCount > 1 ==>
      var filled := Place(Opened(Get(pending, f.hash), f.pageCount), f.pageIndex, f.text);
      && (r.1.Some? <==> Complete(filled))
      && (r.1.Some? ==> r.1.value == Join(filled))
      && (r.1.None? ==> r.0[f.hash] == filled)
  {
    if f.pageCount <= 1 then (pending, Some(f.text))
    else
      var step := Advance(Get(pending, f.hash), f);
      (Store(pending, f.hash, step.0), step.1)
  }

  /** `_processNotification(payload)` on the raw notification text. */
  function ProcessNotification(pending: Pending, raw: string): (r: (Pending, Option<string>))
    requires WellFormed(raw)
    ensures var fields := SplitFields(raw);
      && (ParseDecimal(fields.count) <= 1 ==> r == (pending, Some(fields.text)))
      && (forall h :: h != fields.hash ==> Get(r.0, h) == Get(pending, h))
  {
    Ingest(pending, Parse(raw))
  }

  /** Delivering a fragment again, or a later fragment for the same slot,
      simply overwrites that slot: the earlier delivery leaves no trace. */
  lemma IngestOverwrite(pending: Pending, f: Fragment, g: Fragment)
    requires f.hash == g.hash && f.pageCount == g.pageCount && f.pageIndex == g.pageIndex
    requires Ingest(pending, f).1.None?
    ensures Ingest(Ingest(pending, f).0, g) == Ingest(pending, g)
  {
    var h := f.hash;
    var slots := Opened(Get(pending, h), f.pageCount);
    var once := Place(slots, f.pageIndex, f.text);
    var twice := Place(once, g.pageIndex, g.text);
    assert twice == Place(slots, g.pageIndex, g.text);
    var p1 := pending[h := once];
    assert Ingest(pending, f).0 == p1;
    assert Get(p1, h) == Some(once);
    assert p1[h := twice] == pending[h := twice];
    assert p1 - {h} == pending - {h};
  }

  lemma StoreCommutes(p: Pending, h1: string, e1: Option<seq<Slot>>, h2: string, e2: Option<seq<Slot>>)
    requires h1 != h2
    ensures Store(Store(p, h1, e1), h2, e2) == Store(Store(p, h2, e2), h1, e1)
  {
  }

  /** Fragments of different hashes commute: interleaving two messages
      changes neither what each delivery returns nor the final buffer. */
  lemma IngestCommutes(pending: Pending, f: Fragment, g: Fragment)
    requires f.hash != g.hash
    ensures Ingest(Ingest(pending, f).0, g).1 == Ingest(pending, g).1
    ensures Ingest(Ingest(pending, g).0, f).1 == Ingest(pending, f).1
    ensures Ingest(Ingest(pending, f).0, g).0 == Ingest(Ingest(pending, g).0, f).0
  {
    var pf := Ingest(pending, f).0;
    var pg := Ingest(pending, g).0;
    assert Get(pf, g.hash) == Get(pending, g.hash);
    assert Get(pg, f.hash) == Get(pending, f.hash);
    if f.pageCount > 1 && g.pageCount > 1 {
      StoreCommutes(pending, f.hash, Advance(Get(pending, f.hash), f).0,
                             g.hash, Advance(Get(pending, g.hash), g).0);
    }
  }

  // ---------------------------------------------------------------------
  // Feeding a whole message

  /** Deliver fragments in sequence; the outputs in delivery order. */
  function FeedAll(pending: Pending, fs: seq<Fragment>): (r: (Pending, seq<Option<string>>))
    ensures |r.1| == |fs|
    decreases |fs|
  {
    if |fs| == 0 then (pending, [])
    else
      var before := FeedAll(pending, fs[..|fs| - 1]);
      var last := Ingest(before.0, fs[|fs| - 1]);
      (last.0, before.1 + [last.1])
  }

  /** Deliver raw notifications in sequence. */
  function FeedWire(pending: Pending, ws: seq<string>): (r: (Pending, seq<Option<string>>))
    requires forall k :: 0 <= k < |ws| ==> WellFormed(ws[k])
    ensures |r.1| == |ws|
    decreases |ws|
  {
    if |ws| == 0 then (pending, [])
    else
      var before := FeedWire(pending, ws[..|ws| - 1]);
      var last := ProcessNotification(before.0, ws[|ws| - 1]);
      (last.0, before.1 + [last.1])
  }

  /** `order` lists the page numbers 1..n, each exactly once. */
  predicate IsPageOrder(order: seq<nat>, n: nat) {
    && |order| == n
    && (forall k :: 0 <= k < n ==> 1 <= order[k] <= n)
    && (forall k, l :: 0 <= k < l < n ==> order[k] != order[l])
    && (forall p :: 1 <= p <= n ==> p in order)
  }

  /** `xs` rearranged so that position `k` holds page `order[k]`. */
  function InOrder<T>(xs: seq<T>, order: seq<nat>): (r: seq<T>)
    requires forall k :: 0 <= k < |order| ==> 1 <= order[k] <= |xs|
    ensures |r| == |order|
  {
    seq(|order|, k requires 0 <= k < |order| => xs[order[k] - 1])
  }

  /** The slots after the pages numbered in `done` have arrived. */
  function Partial(pages: seq<string>, done: seq<nat>): seq<Slot> {
    seq(|pages|, j requires 0 <= j < |pages| => if j + 1 in done then Filled(pages[j]) else Missing)
  }

  function Nones(k: nat): seq<Option<string>> {
    seq(k, _ => None)
  }

  lemma PrefixSnoc<T>(s: seq<T>, k: nat)
    requires 0 < k <= |s|
    ensures s[..k] == s[..k - 1] + [s[k - 1]]
  {
  }

  lemma FeedAllSnoc(pending: Pending, fs: seq<Fragment>, f: Fragment)
    ensures var before := FeedAll(pending, fs);
      var last := Ingest(before.0, f);
      FeedAll(pending, fs + [f]) == (last.0, before.1 + [last.1])
  {
    assert (fs + [f])[..|fs|] == fs;
  }

  lemma PlacePartial(pages: seq<string>, done: seq<nat>, v: nat)
    requires 1 <= v <= |pages|
    ensures Place(Partial(pages, done), v, pages[v - 1]) == Partial(pages, done + [v])
  {
    var l := Place(Partial(pages, done), v, pages[v - 1]);
    var r := Partial(pages, done + [v]);
    forall j | 0 <= j < |pages|
      ensures l[j] == r[j]
    {
      assert (j + 1 in done + [v]) <==> (j + 1 in done || j + 1 == v);
    }
  }

  lemma PartialMissing(pages: seq<string>, done: seq<nat>, v: nat)
    requires 1 <= v <= |pages| && v !in done
    ensures !Complete(Partial(pages, done))
  {
    assert Partial(pages, done)[v - 1] == Missing;
  }

  lemma PartialFull(pages: seq<string>, done: seq<nat>)
    requires forall v :: 1 <= v <= |pages| ==> v in done
    ensures Complete(Partial(pages, done))
    ensures Join(Partial(pages, done)) == Concat(pages)
  {
    var slots := Partial(pages, done);
    forall j | 0 <= j < |pages|
      ensures slots[j] == Filled(pages[j])
    {
      assert j + 1 in done;
    }
    assert seq(|slots|, j requires 0 <= j < |slots| => SlotText(slots[j])) == pages;
  }

  /** Page `v` of `pages` arrives while the pages in `done` are buffered. */
  lemma IngestPage(q: Pending, h: string, pages: seq<string>, done: seq<nat>, v: nat)
    requires |pages| >= 2 && 1 <= v <= |pages|
    requires Get(q, h) == Some(Partial(pages, done)) || (Get(q, h) == None && done == [])
    ensures var next := Partial(pages, done + [v]);
      var r := Ingest(q, Fragment(h, |pages|, v, pages[v - 1]));
      && (Complete(next) ==> r == (q - {h}, Some(Join(next))))
      && (!Complete(next) ==> r == (q[h := next], None))
  {
    if Get(q, h) == None {
      assert Fresh(|pages|) == Partial(pages, done);
    }
    PlacePartial(pages, done, v);
  }

  lemma UpdateTwice(m: Pending, h: string, a: seq<Slot>, b: seq<Slot>)
    ensures m[h := a][h := b] == m[h := b]
  {
  }

  lemma RemoveAfterUpdate(m: Pending, h: string, a: seq<Slot>)
    requires h !in m
    ensures m[h := a] - {h} == m
  {
  }

  lemma PageOrderNext(order: seq<nat>, n: nat, k: nat)
    requires IsPageOrder(order, n) && k < n
    ensures 1 <= order[k] <= n && order[k] !in order[..k]
  {
  }

  /** The buffer after the first `k` pages of `order` have arrived. */
  function After(pending: Pending, h: string, pages: seq<string>, order: seq<nat>, k: nat): Pending
    requires k <= |order|
  {
    if k == 0 then pending else pending[h := Partial(pages, order[..k])]
  }

  /** Page number `k` in arrival order (not the last one) is buffered. */
  lemma IngestNext(pending: Pending, h: string, pages: seq<string>, order: seq<nat>, k: nat)
    requires h !in pending && |pages| >= 2 && IsPageOrder(order, |pages|) && 1 <= k < |pages|
    ensures Ingest(After(pending, h, pages, order, k - 1), InOrder(PageFragments(h, pages), order)[k - 1])
         == (After(pending, h, pages, order, k), None)
  {
    var n := |pages|;
    assert InOrder(PageFragments(h, pages), order)[k - 1] == Fragment(h, n, order[k - 1], pages[order[k - 1] - 1]);
    PageOrderNext(order, n, k - 1);
    PageOrderNext(order, n, k);
    var v := order[k - 1];
    var q := After(pending, h, pages, order, k - 1);
    var next := Partial(pages, order[..k]);
    PrefixSnoc(order, k);
    PartialMissing(pages, order[..k], order[k]);
    if k == 1 {
      assert order[..0] == [];
      IngestPage(q, h, pages, [], v);
    } else {
      var prev := Partial(pages, order[..k - 1]);
      IngestPage(q, h, pages, order[..k - 1], v);
      UpdateTwice(pending, h, prev, next);
    }
  }

  /** One more fragment that is buffered without completing anything. */
  lemma FeedOne(pending: Pending, fs: seq<Fragment>, k: nat, q: Pending, q': Pending)
    requires 1 <= k <= |fs|
    requires FeedAll(pending, fs[..k - 1]) == (q, Nones(k - 1))
    requires Ingest(q, fs[k - 1]) == (q', None)
    ensures FeedAll(pending, fs[..k]) == (q', Nones(k))
  {
    PrefixSnoc(fs, k);
    FeedAllSnoc(pending, fs[..k - 1], fs[k - 1]);
    assert Nones(k - 1) + [None] == Nones(k);
  }

  lemma {:induction false} FeedPrefix(pending: Pending, h: string, pages: seq<string>, order: seq<nat>, k: nat)
    requires h !in pending && |pages| >= 2 && IsPageOrder(order, |pages|) && k < |pages|
    ensures FeedAll(pending, InOrder(PageFragments(h, pages), order)[..k])
         == (After(pending, h, pages, order, k), Nones(k))
  {
    var fs := InOrder(PageFragments(h, pages), order);
    if k == 0 {
      assert fs[..0] == [];
      assert FeedAll(pending, []) == (pending, []);
      assert Nones(0) == [];
    } else {
      FeedPrefix(pending, h, pages, order, k - 1);
      IngestNext(pending, h, pages, order, k);
      FeedOne(pending, fs, k, After(pending, h, pages, order, k - 1), After(pending, h, pages, order, k));
    }
  }

  /** A one-page message passes straight through. */
  lemma ReassembleOnePage(pending: Pending, h: string, pages: seq<string>, order: seq<nat>)
    requires |pages| == 1 && IsPageOrder(order, 1)
    ensures FeedAll(pending, InOrder(PageFragments(h, pages), order)) == (pending, [Some(Concat(pages))])
  {
    var f := Fragment(h, 1, 1, pages[0]);
    assert InOrder(PageFragments(h, pages), order) == [f] by {
      assert order == [1];
    }
    assert FeedAll(pending, [f]) == (pending, [Some(pages[0])]) by {
      assert [f][..0] == [];
      assert FeedAll(pending, []) == (pending, []);
      assert Ingest(pending, f) == (pending, Some(pages[0]));
      assert [] + [Some(pages[0])] == [Some(pages[0])];
    }
    assert Concat(pages) == pages[0] by {
      assert pages[1..] == [];
    }
  }

  /** The last of n >= 2 pages completes the message. */
  lemma {:induction false} ReassembleManyPages(pending: Pending, h: string, pages: seq<string>, order: seq<nat>)
    requires h !in pending && |pages| >= 2 && IsPageOrder(order, |pages|)
    ensures FeedAll(pending, InOrder(PageFragments(h, pages), order))
         == (pending, Nones(|pages| - 1) + [Some(Concat(pages))])
  {
    var n := |pages|;
    var fs := InOrder(PageFragments(h, pages), order);
    PageOrderNext(order, n, n - 1);
    var v := order[n - 1];
    var f := fs[n - 1];
    assert f == Fragment(h, n, v, pages[v - 1]);
    PrefixSnoc(fs, n);
    assert fs == fs[..n - 1] + [f];
    FeedAllSnoc(pending, fs[..n - 1], f);
    FeedPrefix(pending, h, pages, order, n - 1);
    var prev := Partial(pages, order[..n - 1]);
    var q := pending[h := prev];
    assert After(pending, h, pages, order, n - 1) == q;
    IngestPage(q, h, pages, order[..n - 1], v);
    PrefixSnoc(order, n);
    assert order[..n - 1] + [v] == order;
    PartialFull(pages, order);
    RemoveAfterUpdate(pending, h, prev);
  }

  /** Whatever order the n pages of one message arrive in, the first n - 1
      deliveries return nothing and the last returns the pages joined in
      page order; the buffer ends as it began. */
  lemma ReassembleAnyOrder(pending: Pending, h: string, pages: seq<string>, order: seq<nat>)
    requires h !in pending && |pages| >= 1 && IsPageOrder(order, |pages|)
    ensures FeedAll(pending, InOrder(PageFragments(h, pages), order))
         == (pending, Nones(|pages| - 1) + [Some(Concat(pages))])
  {
    if |pages| == 1 {
      ReassembleOnePage(pending, h, pages, order);
      assert Nones(0) + [Some(Concat(pages))] == [Some(Concat(pages))];
    } else {
      ReassembleManyPages(pending, h, pages, order);
    }
  }

  /** The trigger function's pages, delivered in any order under one hash,
      reassemble to exactly the original message. */
  lemma SplitReassembleRoundTrip(pending: Pending, h: string, msg: string, order: seq<nat>)
    requires h !in pending && IsPageOrder(order, PageCount(|msg|))
    ensures FeedAll(pending, InOrder(PageFragments(h, Pages(msg)), order))
         == (pending, Nones(PageCount(|msg|) - 1) + [Some(msg)])
  {
    PagesRoundTrip(msg);
    ReassembleAnyOrder(pending, h, Pages(msg), order);
  }

  /** The same for pages cut by bytes. */
  lemma ByteSplitReassembleRoundTrip(pending: Pending, h: string, msg: string, order: seq<nat>)
    requires h !in pending && IsPageOrder(order, |BytePages(msg)|)
    ensures FeedAll(pending, InOrder(PageFragments(h, BytePages(msg)), order))
         == (pending, Nones(|BytePages(msg)| - 1) + [Some(msg)])
  {
    var pages := BytePages(msg);
    assert Concat(pages) == msg;
    ReassembleAnyOrder(pending, h, pages, order);
  }

  function ParseAll(ws: seq<string>): (fs: seq<Fragment>)
    requires forall k :: 0 <= k < |ws| ==> WellFormed(ws[k])
    ensures |fs| == |ws|
  {
    seq(|ws|, k requires 0 <= k < |ws| => Parse(ws[k]))
  }

  /** Feeding raw notifications is feeding their parsed fragments. */
  lemma {:induction false} FeedWireParses(pending: Pending, ws: seq<string>)
    requires forall k :: 0 <= k < |ws| ==> WellFormed(ws[k])
    ensures FeedWire(pending, ws) == FeedAll(pending, ParseAll(ws))
    decreases |ws|
  {
    if |ws| > 0 {
      FeedWireParses(pending, ws[..|ws| - 1]);
      var fs := ParseAll(ws);
      assert fs[..|fs| - 1] == ParseAll(ws[..|ws| - 1]);
    }
  }

  /** The raw notifications, parsed, are the trigger function's fragments
      in delivery order. */
  lemma ParsePayloads(h: string, msg: string, order: seq<nat>)
    requires ':' !in h && IsPageOrder(order, PageCount(|msg|))
    ensures var ws := InOrder(TriggerPayloads(h, msg), order);
      && (forall k :: 0 <= k < |ws| ==> WellFormed(ws[k]))
      && ParseAll(ws) == InOrder(PageFragments(h, Pages(msg)), order)
  {
    var fs := PageFragments(h, Pages(msg));
    var ws := InOrder(TriggerPayloads(h, msg), order);
    var gs := InOrder(fs, order);
    forall k | 0 <= k < |gs|
      ensures ':' !in gs[k].hash && ws[k] == Encode(gs[k])
    {
      assert gs[k] == fs[order[k] - 1];
    }
    ParseEach(ws, gs);
  }

  /** Notifications that encode colon-free-hash fragments parse back into
      those fragments. */
  lemma ParseEach(ws: seq<string>, fs: seq<Fragment>)
    requires |ws| == |fs|
    requires forall k :: 0 <= k < |fs| ==> ':' !in fs[k].hash && ws[k] == Encode(fs[k])
    ensures forall k :: 0 <= k < |ws| ==> WellFormed(ws[k])
    ensures ParseAll(ws) == fs
  {
  }

  /** End to end: the notifications the trigger function sends for `msg`,
      received in any order, give back `msg` once the last one arrives. */
  lemma NotificationRoundTrip(pending: Pending, h: string, msg: string, order: seq<nat>)
    requires ':' !in h && h !in pending && IsPageOrder(order, PageCount(|msg|))
    ensures forall k :: 0 <= k < |order| ==> WellFormed(InOrder(TriggerPayloads(h, msg), order)[k])
    ensures FeedWire(pending, InOrder(TriggerPayloads(h, msg), order))
         == (pending, Nones(PageCount(|msg|) - 1) + [Some(msg)])
  {
    ParsePayloads(h, msg, order);
    var ws := InOrder(TriggerPayloads(h, msg), order);
    FeedWireParses(pending, ws);
    SplitReassembleRoundTrip(pending, h, msg, order);
  }
}

=== FILE: subscriptions.dfy ===
/** `notify` and the `stop` of the handle it returns: the map from
    lower-cased table name to callbacks, and the per-table triggers named
    `channel_table` that exist in the database while a table is observed. */
module Subscriptions {
  import opened Common
  import opened Text

  /** `table_cbs`, together with the names of the table triggers installed
      in the database. */
  datatype Registry = Registry(tableCbs: map<string, seq<CallbackId>>, triggers: set<string>)

  const Empty: Registry := Registry(map[], {})

  /** `${channel}_${table}`. */
  function TriggerName(channel: string, table: string): string {
    channel + "_" + table
  }

  lemma TriggerNameInjective(channel: string, a: string, b: string)
    requires TriggerName(channel, a) == TriggerName(channel, b)
    ensures a == b
  {
    assert a == TriggerName(channel, a)[|channel| + 1..];
    assert b == TriggerName(channel, b)[|channel| + 1..];
  }

  function TriggersFor(channel: string, tables: set<string>): set<string> {
    set t | t in tables :: TriggerName(channel, t)
  }

  lemma TriggersForAdd(channel: string, tables: set<string>, t: string)
    ensures TriggersFor(channel, tables + {t}) == TriggersFor(channel, tables) + {TriggerName(channel, t)}
  {
  }

  lemma TriggersForRemove(channel: string, tables: set<string>, t: string)
    ensures TriggersFor(channel, tables - {t}) == TriggersFor(channel, tables) - {TriggerName(channel, t)}
  {
    forall x | x in TriggersFor(channel, tables) && x != TriggerName(channel, t)
      ensures x in TriggersFor(channel, tables - {t})
    {
      var u :| u in tables && x == TriggerName(channel, u);
    }
    forall u | u in tables - {t}
      ensures TriggerName(channel, u) != TriggerName(channel, t)
    {
      if TriggerName(channel, u) == TriggerName(channel, t) {
        TriggerNameInjective(channel, u, t);
      }
    }
  }

  /** A trigger exists exactly for each observed table. */
  ghost predicate TriggersMatch(channel: string, r: Registry) {
    r.triggers == TriggersFor(channel, r.tableCbs.Keys)
  }

  /** The registry invariant: triggers match the observed tables, and each
      observed table has a non-empty, duplicate-free list under a
      lower-case name. */
  ghost predicate Valid(channel: string, r: Registry) {
    && TriggersMatch(channel, r)
    && forall t :: t in r.tableCbs ==>
         |r.tableCbs[t]| > 0 && NoDuplicates(r.tableCbs[t]) && Lower(t) == t
  }

  /** The callbacks of a table, `[]` when it is not observed. */
  function Entry(r: Registry, t: string): seq<CallbackId> {
    OrElse(Get(r.tableCbs, t), [])
  }

  /** Two valid registries with the same callbacks per table are equal:
      the observed tables and the triggers follow from the lists. */
  lemma ValidExtensional(channel: string, r1: Registry, r2: Registry)
    requires Valid(channel, r1) && Valid(channel, r2)
    requires forall t :: Entry(r1, t) == Entry(r2, t)
    ensures r1 == r2
  {
    assert forall t :: t in r1.tableCbs <==> Entry(r1, t) != [];
    assert forall t :: t in r2.tableCbs <==> Entry(r2, t) != [];
    assert r1.tableCbs.Keys == r2.tableCbs.Keys;
    assert forall t :: t in r1.tableCbs ==> r1.tableCbs[t] == Entry(r1, t);
    assert r1.tableCbs == r2.tableCbs;
  }

  /** `_.pull(cbs, cb)`: every occurrence of `cb` removed, the rest kept
      in order. */
  function Pull(cbs: seq<CallbackId>, cb: CallbackId): (r: seq<CallbackId>)
    ensures multiset(r) == multiset(cbs)[cb := 0]
    ensures forall x :: x in r <==> x in cbs && x != cb
    ensures cb !in cbs ==> r == cbs
    decreases |cbs|
  {
    if |cbs| == 0 then []
    else
      assert cbs == [cbs[0]] + cbs[1..];
      (if cbs[0] == cb then [] else [cbs[0]]) + Pull(cbs[1..], cb)
  }

  /** Pulling keeps a list free of duplicates. */
  lemma {:induction false} PullNoDuplicates(cbs: seq<CallbackId>, cb: CallbackId)
    requires NoDuplicates(cbs)
    ensures NoDuplicates(Pull(cbs, cb))
    decreases |cbs|
  {
    if |cbs| > 0 {
      PullNoDuplicates(cbs[1..], cb);
      assert cbs[0] !in cbs[1..];
    }
  }

  /** `_.pull` keeps the surviving callbacks in their order: pulling from
      a concatenation pulls from each part. */
  lemma {:induction false} PullConcat(a: seq<CallbackId>, b: seq<CallbackId>, cb: CallbackId)
    ensures Pull(a + b, cb) == Pull(a, cb) + Pull(b, cb)
    decreases |a|
  {
    if |a| == 0 {
      assert a + b == b;
    } else {
      var t := a[1..];
      assert a + b == [a[0]] + (t + b) && a == [a[0]] + t;
      PullCons(a[0], t + b, cb);
      PullCons(a[0], t, cb);
      PullConcat(t, b, cb);
      Regroup(if a[0] == cb then [] else [a[0]], Pull(t, cb), Pull(b, cb));
    }
  }

  lemma Regroup(h: seq<CallbackId>, x: seq<CallbackId>, y: seq<CallbackId>)
    ensures h + (x + y) == (h + x) + y
  {
  }

  lemma PullCons(x: CallbackId, rest: seq<CallbackId>, cb: CallbackId)
    ensures Pull([x] + rest, cb) == (if x == cb then [] else [x]) + Pull(rest, cb)
  {
    assert ([x] + rest)[1..] == rest;
  }

  /** A single callback is dropped exactly when it is the one pulled. */
  lemma PullSingle(x: CallbackId, cb: CallbackId)
    ensures Pull([x], cb) == if x == cb then [] else [x]
  {
    assert [x][1..] == [];
  }

  lemma {:induction false} PullAppended(cbs: seq<CallbackId>, cb: CallbackId)
    requires cb !in cbs
    ensures Pull(cbs + [cb], cb) == cbs
    decreases |cbs|
  {
    if |cbs| == 0 {
      assert Pull([cb], cb) == [] + Pull([cb][1..], cb);
    } else {
      assert (cbs + [cb])[1..] == cbs[1..] + [cb];
      PullAppended(cbs[1..], cb);
    }
  }

  // ---------------------------------------------------------------------
  // notify

  /** The `tables` argument: a bare string or an array of strings. */
  datatype Tables = One(name: string) | Many(names: seq<string>)

  /** What `stop` needs: the lower-cased tables and the callback. */
  datatype Handle = Handle(tables: seq<string>, callback: CallbackId)

  datatype SubscribeError = AlreadyObserved(table: string) | DuplicateTables

  /** `tables = [tables]` for a string, then `toLowerCase()` on each. */
  function Normalize(tables: Tables): (names: seq<string>)
    ensures tables.One? ==> names == [Lower(tables.name)]
    ensures tables.Many? ==>
      (|names| == |tables.names| && forall i :: 0 <= i < |names| ==> names[i] == Lower(tables.names[i]))
    ensures forall i :: 0 <= i < |names| ==> Lower(names[i]) == names[i]
  {
    var raw := if tables.One? then [tables.name] else tables.names;
    seq(|raw|, i requires 0 <= i < |raw| => Lower(raw[i]))
  }

  predicate Observes(r: Registry, t: string, cb: CallbackId) {
    t in r.tableCbs && cb in r.tableCbs[t]
  }

  /** A callback held by no table observes none of them. */
  lemma FreshNotObserved(r: Registry, names: seq<string>, cb: CallbackId)
    requires forall t :: cb !in Entry(r, t)
    ensures forall i :: 0 <= i < |names| ==> !Observes(r, names[i], cb)
  {
    forall i | 0 <= i < |names|
      ensures !Observes(r, names[i], cb)
    {
      assert cb !in Entry(r, names[i]);
    }
  }

  /** The first table (in argument order) already observed with `cb`:
      the one `notify` names in its error. */
  function FirstObserved(r: Registry, tables: seq<string>, cb: CallbackId): (o: Option<string>)
    ensures o.None? <==> forall i :: 0 <= i < |tables| ==> !Observes(r, tables[i], cb)
    ensures o.Some? ==>
      (exists i :: 0 <= i < |tables| && tables[i] == o.value && Observes(r, o.value, cb)
         && forall j :: 0 <= j < i ==> !Observes(r, tables[j], cb))
    decreases |tables|
  {
    if |tables| == 0 then None
    else if Observes(r, tables[0], cb) then Some(tables[0])
    else
      var o := FirstObserved(r, tables[1..], cb);
      assert o.Some? ==>
        (exists i :: 1 <= i < |tables| && tables[i] == o.value && Observes(r, o.value, cb)
           && forall j :: 1 <= j < i ==> !Observes(r, tables[j], cb));
      o
  }

  /** One table of a successful `notify`: a new table gets `[cb]` and its
      trigger, an observed one gets `cb` appended. */
  function AddOne(channel: string, r: Registry, t: string, cb: CallbackId): (r': Registry)
    ensures Entry(r', t) == Entry(r, t) + [cb]
    ensures forall u :: u != t ==> Entry(r', u) == Entry(r, u)
    ensures r'.tableCbs.Keys == r.tableCbs.Keys + {t}
    ensures TriggersMatch(channel, r) ==> TriggersMatch(channel, r')
  {
    if t in r.tableCbs then r.(tableCbs := r.tableCbs[t := r.tableCbs[t] + [cb]])
    else
      TriggersForAdd(channel, r.tableCbs.Keys, t);
      Registry(r.tableCbs[t := [cb]], r.triggers + {TriggerName(channel, t)})
  }

  /** Registering on every table of a list: afterwards each of them holds
      the callback, and no other table changes. */
  function AddAll(channel: string, r: Registry, tables: seq<string>, cb: CallbackId): (r': Registry)
    ensures forall t :: t in tables ==> cb in Entry(r', t)
    ensures forall t :: t !in tables ==> Entry(r', t) == Entry(r, t)
    decreases |tables|
  {
    if |tables| == 0 then r
    else AddAll(channel, AddOne(channel, r, tables[0], cb), tables[1..], cb)
  }

  lemma {:induction false} AddAllEffect(channel: string, r: Registry, tables: seq<string>, cb: CallbackId)
    requires NoDuplicates(tables)
    ensures var r' := AddAll(channel, r, tables, cb);
      && (forall t :: Entry(r', t) == if t in tables then Entry(r, t) + [cb] else Entry(r, t))
      && (forall t :: t in r'.tableCbs <==> t in r.tableCbs || t in tables)
    decreases |tables|
  {
    if |tables| > 0 {
      var r1 := AddOne(channel, r, tables[0], cb);
      assert tables[0] !in tables[1..];
      AddAllEffect(channel, r1, tables[1..], cb);
      assert forall t :: t in tables <==> t == tables[0] || t in tables[1..];
    }
  }

  lemma {:induction false} AddAllTriggers(channel: string, r: Registry, tables: seq<string>, cb: CallbackId)
    requires TriggersMatch(channel, r)
    ensures TriggersMatch(channel, AddAll(channel, r, tables, cb))
    decreases |tables|
  {
    if |tables| > 0 {
      AddAllTriggers(channel, AddOne(channel, r, tables[0], cb), tables[1..], cb);
    }
  }

  /** `notify(tables, callback)` once initialised: normalise, reject a table
      already observed with this callback (the first such one is named)
      or a repeated table, else register the callback on every table. */
  function Subscribe(channel: string, r: Registry, tables: Tables, cb: CallbackId): (res: Result<(Registry, Handle), SubscribeError>)
    ensures var names := Normalize(tables);
      res.Failure? <==> (exists i :: 0 <= i < |names| && Observes(r, names[i], cb)) || !NoDuplicates(names)
    ensures var names := Normalize(tables);
      (exists i :: 0 <= i < |names| && Observes(r, names[i], cb)) ==>
        res == Failure(AlreadyObserved(FirstObserved(r, names, cb).value))
    ensures var names := Normalize(tables);
      (forall i :: 0 <= i < |names| ==> !Observes(r, names[i], cb)) && !NoDuplicates(names) ==>
        res == Failure(DuplicateTables)
    ensures res.Success? ==> res.value.1 == Handle(Normalize(tables), cb)
  {
    var names := Normalize(tables);
    match FirstObserved(r, names, cb)
    case Some(t) => Failure(AlreadyObserved(t))
    case None =>
      if !NoDuplicates(names) then Failure(DuplicateTables)
      else Success((AddAll(channel, r, names, cb), Handle(names, cb)))
  }

  /** A successful `notify` appends the callback to every named table
      (creating the entry for a new one) and leaves the other tables
      alone. */
  lemma SubscribeEffect(channel: string, r: Registry, tables: Tables, cb: CallbackId)
    requires Subscribe(channel, r, tables, cb).Success?
    ensures var (r', h) := Subscribe(channel, r, tables, cb).value;
      && (forall t :: Entry(r', t) == if t in h.tables then Entry(r, t) + [cb] else Entry(r, t))
      && (forall t :: t in r'.tableCbs <==> t in r.tableCbs || t in h.tables)
  {
    AddAllEffect(channel, r, Normalize(tables), cb);
  }

  /** A successful `notify` keeps the registry valid: one trigger per
      observed table, no callback twice on a table. */
  lemma SubscribeValid(channel: string, r: Registry, tables: Tables, cb: CallbackId)
    requires Valid(channel, r) && Subscribe(channel, r, tables, cb).Success?
    ensures Valid(channel, Subscribe(channel, r, tables, cb).value.0)
  {
    var (r', h) := Subscribe(channel, r, tables, cb).value;
    SubscribeEffect(channel, r, tables, cb);
    AddAllTriggers(channel, r, h.tables, cb);
    ListsStayValid(r, r', h.tables, cb);
  }

  /** Appending a callback that none of the (lower-case) tables holds yet
      keeps every list non-empty, free of repeats and under a lower-case
      name. */
  lemma ListsStayValid(r: Registry, r': Registry, tables: seq<string>, cb: CallbackId)
    requires forall t :: t in r.tableCbs ==>
      |r.tableCbs[t]| > 0 && NoDuplicates(r.tableCbs[t]) && Lower(t) == t
    requires forall t :: Entry(r', t) == if t in tables then Entry(r, t) + [cb] else Entry(r, t)
    requires forall t :: t in r'.tableCbs <==> t in r.tableCbs || t in tables
    requires forall i :: 0 <= i < |tables| ==> !Observes(r, tables[i], cb) && Lower(tables[i]) == tables[i]
    ensures forall t :: t in r'.tableCbs ==>
      |r'.tableCbs[t]| > 0 && NoDuplicates(r'.tableCbs[t]) && Lower(t) == t
  {
    forall t | t in r'.tableCbs
      ensures |r'.tableCbs[t]| > 0 && NoDuplicates(r'.tableCbs[t]) && Lower(t) == t
    {
      assert r'.tableCbs[t] == Entry(r', t);
      if t in tables {
        var i :| 0 <= i < |tables| && tables[i] == t;
        assert !Observes(r, t, cb);
      }
    }
  }

  // ---------------------------------------------------------------------
  // stop

  /** One table of `stop`: pull the callback; a list left empty is deleted
      and its trigger dropped. A table no longer registered is skipped. */
  function RemoveOne(channel: string, r: Registry, t: string, cb: CallbackId): (r': Registry)
    ensures Entry(r', t) == Pull(Entry(r, t), cb)
    ensures t in r'.tableCbs <==> t in r.tableCbs && Pull(Entry(r, t), cb) != []
    ensures forall u :: u != t ==> Entry(r', u) == Entry(r, u) && (u in r'.tableCbs <==> u in r.tableCbs)
  {
    if t !in r.tableCbs then r
    else
      var rest := Pull(r.tableCbs[t], cb);
      if |rest| == 0 then Registry(r.tableCbs - {t}, r.triggers - {TriggerName(channel, t)})
      else r.(tableCbs := r.tableCbs[t := rest])
  }

  lemma RemoveOneValid(channel: string, r: Registry, t: string, cb: CallbackId)
    requires Valid(channel, r)
    ensures Valid(channel, RemoveOne(channel, r, t, cb))
  {
    if t in r.tableCbs {
      PullNoDuplicates(r.tableCbs[t], cb);
    }
    if t in r.tableCbs && |Pull(r.tableCbs[t], cb)| == 0 {
      TriggersForRemove(channel, r.tableCbs.Keys, t);
      assert (r.tableCbs - {t}).Keys == r.tableCbs.Keys - {t};
    }
  }

  /** The handle's `stop()`, with a table that is no longer registered
      skipped. */
  function Stop(channel: string, r: Registry, h: Handle): (r': Registry)
    ensures forall t :: t in h.tables ==> h.callback !in Entry(r', t)
    ensures forall t :: t !in h.tables ==> Entry(r', t) == Entry(r, t)
    decreases |h.tables|
  {
    if |h.tables| == 0 then r
    else Stop(channel, RemoveOne(channel, r, h.tables[0], h.callback), Handle(h.tables[1..], h.callback))
  }

  /** `stop()` removes the callback from each of its tables; a table left
      without callbacks is no longer observed; every other table is
      untouched. */
  lemma {:induction false} StopEffect(channel: string, r: Registry, h: Handle)
    ensures var r' := Stop(channel, r, h);
      && (forall t :: Entry(r', t) == if t in h.tables then Pull(Entry(r, t), h.callback) else Entry(r, t))
      && (forall t :: t in r'.tableCbs <==>
            t in r.tableCbs && (t in h.tables ==> Pull(Entry(r, t), h.callback) != []))
    decreases |h.tables|
  {
    if |h.tables| > 0 {
      var t := h.tables[0];
      var r1 := RemoveOne(channel, r, t, h.callback);
      StopEffect(channel, r1, Handle(h.tables[1..], h.callback));
      assert forall u :: u in h.tables <==> u == t || u in h.tables[1..];
    }
  }

  /** `stop()` keeps the registry valid: a trigger is dropped exactly when
      its table's last callback goes. */
  lemma {:induction false} StopValid(channel: string, r: Registry, h: Handle)
    requires Valid(channel, r)
    ensures Valid(channel, Stop(channel, r, h))
    decreases |h.tables|
  {
    if |h.tables| > 0 {
      RemoveOneValid(channel, r, h.tables[0], h.callback);
      StopValid(channel, RemoveOne(channel, r, h.tables[0], h.callback), Handle(h.tables[1..], h.callback));
    }
  }

  /** `stop()` exactly as written: a table that is no longer in `table_cbs`
      makes `table_cbs[table].length` throw a TypeError (the `_.pull` before
      it ignores `undefined`); the other tables are still processed. The
      second component says whether the call threw. */
  function StopAsWritten(channel: string, r: Registry, h: Handle): (res: (Registry, bool))
    ensures res.0 == Stop(channel, r, h)
    ensures !res.1 ==> forall i :: 0 <= i < |h.tables| ==> h.tables[i] in r.tableCbs
    decreases |h.tables|
  {
    if |h.tables| == 0 then (r, false)
    else
      var t := h.tables[0];
      var rest := StopAsWritten(channel, RemoveOne(channel, r, t, h.callback), Handle(h.tables[1..], h.callback));
      (rest.0, t !in r.tableCbs || rest.1)
  }

  /** On a list of distinct tables, `stop()` as written throws exactly
      when one of them is not registered. */
  lemma {:induction false} StopAsWrittenThrows(channel: string, r: Registry, h: Handle)
    requires NoDuplicates(h.tables)
    ensures StopAsWritten(channel, r, h).1 <==> exists i :: 0 <= i < |h.tables| && h.tables[i] !in r.tableCbs
    decreases |h.tables|
  {
    if |h.tables| > 0 {
      var t := h.tables[0];
      var r1 := RemoveOne(channel, r, t, h.callback);
      var tail := Handle(h.tables[1..], h.callback);
      assert NoDuplicates(tail.tables) && h.tables == [t] + tail.tables by {
        assert forall i :: 0 <= i < |tail.tables| ==> tail.tables[i] == h.tables[i + 1];
      }
      StopAsWrittenThrows(channel, r1, tail);
      var later := StopAsWritten(channel, r1, tail).1;
      assert StopAsWritten(channel, r, h).1 == (t !in r.tableCbs || later);
      ThrowsStep(t, tail.tables, r.tableCbs.Keys, r1.tableCbs.Keys, later);
    }
  }

  /** One step of the table loop: the first table throws, or a later one
      does against a registry that agrees on every later table. */
  lemma ThrowsStep(t: string, tail: seq<string>, keys: set<string>, keys1: set<string>, later: bool)
    requires NoDuplicates([t] + tail)
    requires forall u :: u != t ==> (u in keys1 <==> u in keys)
    requires later <==> exists i :: 0 <= i < |tail| && tail[i] !in keys1
    ensures (t !in keys || later) <==> exists i :: 0 <= i < |[t] + tail| && ([t] + tail)[i] !in keys
  {
    var tables := [t] + tail;
    forall i | 0 <= i < |tail|
      ensures tables[i + 1] == tail[i] && tail[i] != t
    {
      assert tables[0] != tables[i + 1];
    }
    if later {
      var i :| 0 <= i < |tail| && tail[i] !in keys1;
      assert tables[i + 1] !in keys;
    } else if t in keys {
      forall i | 0 <= i < |tables|
        ensures tables[i] in keys
      {
        if i > 0 {
          assert tail[i - 1] in keys1;
        }
      }
    } else {
      assert tables[0] !in keys;
    }
  }

  // ---------------------------------------------------------------------
  // What subscribing and stopping promise together

  /** Appending a callback new to some tables and then stopping it
      there leaves every table with the callbacks it had. */
  lemma EntriesRestored(channel: string, r: Registry, r1: Registry, h: Handle)
    requires forall t :: Entry(r1, t) == if t in h.tables then Entry(r, t) + [h.callback] else Entry(r, t)
    requires forall t :: t in h.tables ==> h.callback !in Entry(r, t)
    ensures forall t :: Entry(Stop(channel, r1, h), t) == Entry(r, t)
  {
    StopEffect(channel, r1, h);
    forall t | t in h.tables
      ensures Pull(Entry(r, t) + [h.callback], h.callback) == Entry(r, t)
    {
      PullAppended(Entry(r, t), h.callback);
    }
  }

  /** A successful `notify` followed by its `stop` gives back the registry
      and the trigger set it started from. */
  lemma SubscribeThenStop(channel: string, r: Registry, tables: Tables, cb: CallbackId)
    requires Valid(channel, r) && Subscribe(channel, r, tables, cb).Success?
    ensures var (r1, h) := Subscribe(channel, r, tables, cb).value;
      Stop(channel, r1, h) == r
  {
    var (r1, h) := Subscribe(channel, r, tables, cb).value;
    SubscribeEffect(channel, r, tables, cb);
    forall t | t in h.tables
      ensures cb !in Entry(r, t)
    {
      var i :| 0 <= i < |h.tables| && h.tables[i] == t;
      assert !Observes(r, t, cb);
    }
    EntriesRestored(channel, r, r1, h);
    SubscribeValid(channel, r, tables, cb);
    StopValid(channel, r1, h);
    ValidExtensional(channel, Stop(channel, r1, h), r);
  }

  /** With skipped absent tables, a second `stop()` changes nothing. */
  lemma StopIdempotent(channel: string, r: Registry, h: Handle)
    requires Valid(channel, r)
    ensures Stop(channel, Stop(channel, r, h), h) == Stop(channel, r, h)
  {
    var r1 := Stop(channel, r, h);
    StopEffect(channel, r, h);
    StopEffect(channel, r1, h);
    StopValid(channel, r, h);
    StopValid(channel, r1, h);
    ValidExtensional(channel, Stop(channel, r1, h), r1);
  }

  /** As written, stopping twice a subscription that created a table's
      entry throws on the second call. */
  lemma StopTwiceThrows(channel: string, r: Registry, tables: Tables, cb: CallbackId)
    requires Valid(channel, r) && Subscribe(channel, r, tables, cb).Success?
    requires exists i :: 0 <= i < |Normalize(tables)| && Normalize(tables)[i] !in r.tableCbs
    ensures var (r1, h) := Subscribe(channel, r, tables, cb).value;
      StopAsWritten(channel, Stop(channel, r1, h), h).1
  {
    SubscribeThenStop(channel, r, tables, cb);
    var (r1, h) := Subscribe(channel, r, tables, cb).value;
    StopAsWrittenThrows(channel, r, h);
  }
}

=== FILE: text.dfy ===
/** The string primitives the observer relies on: case mapping, `indexOf`,
    decimal integers and PostgreSQL's `substr`. */
module Text {
  import opened Common

  /** Lower-casing of one character; only the ASCII letters are mapped. */
  function LowerChar(c: char): char {
    if 'A' <= c <= 'Z' then (c as int + 32) as char else c
  }

  /** `String.prototype.toLowerCase`, restricted to ASCII letters. */
  function Lower(s: string): (r: string)
    ensures |r| == |s|
    ensures forall i :: 0 <= i < |s| ==> !('A' <= r[i] <= 'Z')
    ensures forall i :: 0 <= i < |s| && !('A' <= s[i] <= 'Z') ==> r[i] == s[i]
    ensures forall i :: 0 <= i < |s| && 'A' <= s[i] <= 'Z' ==> r[i] as int == s[i] as int + 32
  {
    seq(|s|, i requires 0 <= i < |s| => LowerChar(s[i]))
  }

  /** `s.indexOf(c, from)`: the first position at or after `from` holding
      `c`, or -1 when there is none. */
  function IndexOf(s: string, c: char, from: nat): (r: int)
    ensures r == -1 || from <= r < |s|
    ensures r == -1 ==> forall i :: from <= i < |s| ==> s[i] != c
    ensures r != -1 ==> s[r] == c && forall i :: from <= i < r ==> s[i] != c
    decreases |s| - from
  {
    if from >= |s| then -1
    else if s[from] == c then from
    else IndexOf(s, c, from + 1)
  }

  /** The first occurrence is unique: any position that holds `c` with no
      earlier `c` since `from` is what `IndexOf` finds. */
  lemma IndexOfFinds(s: string, c: char, from: nat, k: nat)
    requires from <= k < |s| && s[k] == c
    requires forall i :: from <= i < k ==> s[i] != c
    ensures IndexOf(s, c, from) == k
  {
  }

  predicate IsDigit(c: char) {
    '0' <= c <= '9'
  }

  predicate IsDigits(s: string) {
    forall i :: 0 <= i < |s| ==> IsDigit(s[i])
  }

  /** A non-empty run of decimal digits. */
  predicate IsNumeral(s: string) {
    |s| > 0 && IsDigits(s)
  }

  function DigitChar(d: nat): char
    requires d < 10
  {
    ('0' as int + d) as char
  }

  /** How PostgreSQL renders an integer inside `||`: decimal, no sign, no
      leading zeros. */
  function ToDecimal(n: nat): (r: string)
    ensures IsNumeral(r)
    decreases n
  {
    if n < 10 then [DigitChar(n)] else ToDecimal(n / 10) + [DigitChar(n % 10)]
  }

  /** JavaScript's numeric conversion of a digit string (`"3" > 1`,
      `pageNr - 1`): leading zeros are ignored. */
  function ParseDecimal(s: string): nat
    requires IsDigits(s)
    decreases |s|
  {
    if |s| == 0 then 0
    else ParseDecimal(s[..|s| - 1]) * 10 + (s[|s| - 1] as int - '0' as int)
  }

  lemma {:induction false} ParseToDecimal(n: nat)
    ensures ParseDecimal(ToDecimal(n)) == n
  {
    var s := ToDecimal(n);
    if n >= 10 {
      ParseToDecimal(n / 10);
      assert s[..|s| - 1] == ToDecimal(n / 10);
    }
  }

  /** PostgreSQL's `substr(s, from, count)` for `from >= 1`: the characters
      at 1-based positions `from .. from + count - 1` that exist. */
  function Substr(s: string, from: nat, count: nat): (r: string)
    requires from >= 1
    ensures |r| <= count
  {
    s[Min(from - 1, |s|)..Min(from - 1 + count, |s|)]
  }
}

=== FILE: wire.dfy ===
/** The notification wire format `hash:page_count:page_index:text`, the
    splitter run by the generated trigger function, and the parser at the
    start of `_processNotification`. */
module Wire {
  import opened Common
  import opened Text

  /** Characters per page: `substr(full_msg, ((cur_page - 1) * 7950) + 1, 7950)`. */
  const PageSize: nat := 7950

  /** PostgreSQL rejects a NOTIFY payload of 8000 bytes or more. */
  const NotifyLimit: nat := 8000

  /** One notification, after its header has been parsed. */
  datatype Fragment = Fragment(hash: string, pageCount: nat, pageIndex: nat, text: string)

  /** Concatenation of pages in order (`join('')`, and the inverse of splitting). */
  function Concat(pages: seq<string>): string
    decreases |pages|
  {
    if |pages| == 0 then "" else pages[0] + Concat(pages[1..])
  }

  lemma {:induction false} ConcatSnoc(pages: seq<string>, last: string)
    ensures Concat(pages + [last]) == Concat(pages) + last
    decreases |pages|
  {
    if |pages| > 0 {
      assert (pages + [last])[1..] == pages[1..] + [last];
      ConcatSnoc(pages[1..], last);
    }
  }

  // ---------------------------------------------------------------------
  // Splitter, as the trigger function computes it

  /** `(full_len / 7950) + 1`. */
  function PageCount(length: nat): nat {
    length / PageSize + 1
  }

  /** The page texts the trigger function sends, page `p + 1` at index `p`. */
  function Pages(msg: string): (ps: seq<string>)
    ensures |ps| == PageCount(|msg|)
    ensures forall p :: 0 <= p < |ps| ==> |ps[p]| <= PageSize
  {
    seq(PageCount(|msg|), p requires 0 <= p < PageCount(|msg|) => Substr(msg, p * PageSize + 1, PageSize))
  }

  lemma {:induction false} PagesPrefix(msg: string, k: nat)
    requires k <= PageCount(|msg|)
    ensures Concat(Pages(msg)[..k]) == msg[..Min(k * PageSize, |msg|)]
  {
    if k > 0 {
      var pages := Pages(msg);
      PagesPrefix(msg, k - 1);
      assert pages[..k] == pages[..k - 1] + [pages[k - 1]];
      ConcatSnoc(pages[..k - 1], pages[k - 1]);
      var a := Min((k - 1) * PageSize, |msg|);
      var b := Min(k * PageSize, |msg|);
      assert pages[k - 1] == msg[a..b];
      assert msg[..a] + msg[a..b] == msg[..b];
    }
  }

  /** Splitting then concatenating gives the message back; every page holds
      at most 7950 characters, and the last one holds the remainder, so it is
      empty exactly when the length is a multiple of 7950. */
  lemma PagesRoundTrip(msg: string)
    ensures |Pages(msg)| == |msg| / PageSize + 1
    ensures Concat(Pages(msg)) == msg
    ensures forall p :: 0 <= p < |Pages(msg)| ==> |Pages(msg)[p]| <= PageSize
    ensures |Pages(msg)[|Pages(msg)| - 1]| == |msg| % PageSize
  {
    var n := PageCount(|msg|);
    PagesPrefix(msg, n);
    assert Pages(msg)[..n] == Pages(msg);
    assert n * PageSize > |msg|;
  }

  /** The notifications of one message: page `p` of `n`, all under one hash. */
  function PageFragments(hash: string, pages: seq<string>): (fs: seq<Fragment>)
    ensures |fs| == |pages|
  {
    seq(|pages|, p requires 0 <= p < |pages| => Fragment(hash, |pages|, p + 1, pages[p]))
  }

  /** `msg_hash || ':' || page_count || ':' || cur_page || ':' || text`. */
  function Encode(f: Fragment): (w: string)
    ensures ':' !in f.hash ==> WellFormed(w) && Parse(w) == f
  {
    var r := Fields(f.hash, ToDecimal(f.pageCount), ToDecimal(f.pageIndex), f.text);
    assert ':' !in f.hash ==> WellFormed(JoinFields(r)) && Parse(JoinFields(r)) == f by {
      if ':' !in f.hash {
        SplitJoinFields(r);
        ParseToDecimal(f.pageCount);
        ParseToDecimal(f.pageIndex);
      }
    }
    JoinFields(r)
  }

  /** Every `pg_notify` payload the trigger function sends for one message. */
  function TriggerPayloads(hash: string, msg: string): (ws: seq<string>)
    ensures |ws| == PageCount(|msg|)
  {
    var fs := PageFragments(hash, Pages(msg));
    seq(|fs|, p requires 0 <= p < |fs| => Encode(fs[p]))
  }

  // ---------------------------------------------------------------------
  // Parser, as `_processNotification` does it

  /** The four raw fields between the first three colons. */
  datatype Fields = Fields(hash: string, count: string, index: string, text: string)

  /** The three `indexOf(':')` calls succeed and the two counters are
      digit strings. */
  predicate WellFormed(s: string) {
    var p0 := IndexOf(s, ':', 0);
    p0 >= 0 &&
    var p1 := IndexOf(s, ':', p0 + 1);
    p1 >= 0 &&
    var p2 := IndexOf(s, ':', p1 + 1);
    p2 >= 0 && IsNumeral(s[p0 + 1..p1]) && IsNumeral(s[p1 + 1..p2])
  }

  /** Only the first three colons delimit: the text is the whole rest,
      colons included. */
  function SplitFields(s: string): (r: Fields)
    requires WellFormed(s)
    ensures s == JoinFields(r)
    ensures ':' !in r.hash && ':' !in r.count && ':' !in r.index
    ensures IsNumeral(r.count) && IsNumeral(r.index)
  {
    var p0 := IndexOf(s, ':', 0);
    var p1 := IndexOf(s, ':', p0 + 1);
    var p2 := IndexOf(s, ':', p1 + 1);
    var r := Fields(s[..p0], s[p0 + 1..p1], s[p1 + 1..p2], s[p2 + 1..]);
    CutAt(s, p2);
    CutAt(s[..p2], p1);
    CutAt(s[..p1], p0);
    assert s[..p2][..p1] == s[..p1] && s[..p2][p1 + 1..] == s[p1 + 1..p2];
    assert s[..p1][..p0] == s[..p0] && s[..p1][p0 + 1..] == s[p0 + 1..p1];
    r
  }

  /** A string is the part before a colon, the colon and the part after. */
  lemma CutAt(s: string, p: nat)
    requires p < |s| && s[p] == ':'
    ensures s == s[..p] + [':'] + s[p + 1..]
  {
  }

  /** The two sides of a separating colon read back. */
  lemma SidesOf(a: string, b: string)
    ensures (a + [':'] + b)[..|a|] == a
    ensures (a + [':'] + b)[|a| + 1..] == b
  {
  }

  /** The fragment a notification carries: it reads as hash, two decimal
      counters and text, joined by the only three colons that are not part
      of the text. */
  function Parse(s: string): (f: Fragment)
    requires WellFormed(s)
    ensures ':' !in f.hash
    ensures exists c, i :: (s == JoinFields(Fields(f.hash, c, i, f.text))
      && ':' !in c && ':' !in i && IsNumeral(c) && IsNumeral(i)
      && ParseDecimal(c) == f.pageCount && ParseDecimal(i) == f.pageIndex)
  {
    var r := SplitFields(s);
    assert s == JoinFields(Fields(r.hash, r.count, r.index, r.text));
    Fragment(r.hash, ParseDecimal(r.count), ParseDecimal(r.index), r.text)
  }

  /** Searching a colon-free stretch that ends in a colon finds that colon. */
  lemma ColonAtEnd(a: string, from: nat)
    requires from <= |a|
    requires forall k :: from <= k < |a| ==> a[k] != ':'
    ensures IndexOf(a + [':'], ':', from) == |a|
  {
    IndexOfFinds(a + [':'], ':', from, |a|);
  }

  /** What is found in a prefix is found in the whole. */
  lemma IndexOfAppend(a: string, b: string, from: nat)
    requires IndexOf(a, ':', from) >= 0
    ensures IndexOf(a + b, ':', from) == IndexOf(a, ':', from)
  {
    IndexOfFinds(a + b, ':', from, IndexOf(a, ':', from));
  }

  /** The header layout: four fields joined by colons. */
  function JoinFields(r: Fields): string {
    r.hash + [':'] + r.count + [':'] + r.index + [':'] + r.text
  }

  /** The first separator of a joined header ends the hash. */
  lemma FirstSeparator(h: string, c: string, i: string, t: string)
    requires ':' !in h
    ensures IndexOf(h + [':'] + c + [':'] + i + [':'] + t, ':', 0) == |h|
  {
    var a1 := h + [':'] + c;
    var a2 := a1 + [':'] + i;
    ColonAtEnd(h, 0);
    IndexOfAppend(h + [':'], c, 0);
    IndexOfAppend(a1, [':'], 0);
    IndexOfAppend(a1 + [':'], i, 0);
    IndexOfAppend(a2, [':'], 0);
    IndexOfAppend(a2 + [':'], t, 0);
  }

  /** The second separator ends the page count. */
  lemma SecondSeparator(h: string, c: string, i: string, t: string)
    requires ':' !in c
    ensures IndexOf(h + [':'] + c + [':'] + i + [':'] + t, ':', |h| + 1) == |h| + 1 + |c|
  {
    var a1 := h + [':'] + c;
    var a2 := a1 + [':'] + i;
    assert forall k :: |h| + 1 <= k < |a1| ==> a1[k] == c[k - |h| - 1];
    ColonAtEnd(a1, |h| + 1);
    IndexOfAppend(a1 + [':'], i, |h| + 1);
    IndexOfAppend(a2, [':'], |h| + 1);
    IndexOfAppend(a2 + [':'], t, |h| + 1);
  }

  /** The third separator ends the page number. */
  lemma ThirdSeparator(a1: string, i: string, t: string)
    requires ':' !in i
    ensures IndexOf(a1 + [':'] + i + [':'] + t, ':', |a1| + 1) == |a1| + 1 + |i|
  {
    var a2 := a1 + [':'] + i;
    assert forall k :: |a1| + 1 <= k < |a2| ==> a2[k] == i[k - |a1| - 1];
    ColonAtEnd(a2, |a1| + 1);
    IndexOfAppend(a2 + [':'], t, |a1| + 1);
  }

  /** The separator positions of a joined header. */
  lemma SeparatorsOf(r: Fields)
    requires ':' !in r.hash && ':' !in r.count && ':' !in r.index
    ensures var s, n0, n1 := JoinFields(r), |r.hash|, |r.hash| + 1 + |r.count|;
      && IndexOf(s, ':', 0) == n0
      && IndexOf(s, ':', n0 + 1) == n1
      && IndexOf(s, ':', n1 + 1) == n1 + 1 + |r.index|
  {
    FirstSeparator(r.hash, r.count, r.index, r.text);
    SecondSeparator(r.hash, r.count, r.index, r.text);
    ThirdSeparator(r.hash + [':'] + r.count, r.index, r.text);
  }

  /** Equal texts cut at equally placed colons have equal sides. */
  lemma SplitEqual(a: string, x: string, b: string, y: string)
    requires a + [':'] + x == b + [':'] + y && |a| == |b|
    ensures a == b && x == y
  {
    SidesOf(a, x);
    SidesOf(b, y);
  }

  /** Headers with colon-free first fields are told apart by their text. */
  lemma JoinFieldsInjective(r1: Fields, r2: Fields)
    requires ':' !in r1.hash && ':' !in r1.count && ':' !in r1.index
    requires ':' !in r2.hash && ':' !in r2.count && ':' !in r2.index
    requires JoinFields(r1) == JoinFields(r2)
    ensures r1 == r2
  {
    SeparatorsOf(r1);
    SeparatorsOf(r2);
    assert |r1.hash| == |r2.hash|;
    assert |r1.count| == |r2.count|;
    assert |r1.index| == |r2.index|;
    var a1 := r1.hash + [':'] + r1.count;
    var b1 := r2.hash + [':'] + r2.count;
    SplitEqual(a1 + [':'] + r1.index, r1.text, b1 + [':'] + r2.index, r2.text);
    SplitEqual(a1, r1.index, b1, r2.index);
    SplitEqual(r1.hash, r1.count, r2.hash, r2.count);
  }

  /** The field right of a separating colon, read back by its bounds. */
  lemma RightOf(a: string, b: string)
    ensures (a + [':'] + b)[|a| + 1..|a| + 1 + |b|] == b
  {
  }

  /** A slice inside the left operand of a concatenation. */
  lemma SliceLeft(x: string, y: string, j: nat, k: nat)
    requires j <= k <= |x|
    ensures (x + y)[j..k] == x[j..k]
  {
  }

  lemma {:induction false} JoinWellFormed(r: Fields)
    requires ':' !in r.hash && ':' !in r.count && ':' !in r.index
    requires IsNumeral(r.count) && IsNumeral(r.index)
    ensures WellFormed(JoinFields(r))
  {
    SeparatorsOf(r);
    var h, c, i, t := r.hash, r.count, r.index, r.text;
    var a1 := h + [':'] + c;
    var a2 := a1 + [':'] + i;
    var n0, n1, n2 := |h|, |a1|, |a2|;
    RightOf(h, c);
    SliceLeft(a1, [':'], n0 + 1, n1);
    SliceLeft(a1 + [':'], i, n0 + 1, n1);
    SliceLeft(a2, [':'], n0 + 1, n1);
    SliceLeft(a2 + [':'], t, n0 + 1, n1);
    RightOf(a1, i);
    SliceLeft(a2, [':'], n1 + 1, n2);
    SliceLeft(a2 + [':'], t, n1 + 1, n2);
    var s := JoinFields(r);
    assert s == a2 + [':'] + t;
    assert s[n0 + 1..n1] == c && s[n1 + 1..n2] == i;
    WellFormedIntro(s, n0, n1, n2);
  }

  /** The three separators found and the counters numeric: well formed. */
  lemma WellFormedIntro(s: string, n0: nat, n1: nat, n2: nat)
    requires IndexOf(s, ':', 0) == n0 && IndexOf(s, ':', n0 + 1) == n1 && IndexOf(s, ':', n1 + 1) == n2
    requires IsNumeral(s[n0 + 1..n1]) && IsNumeral(s[n1 + 1..n2])
    ensures WellFormed(s)
  {
  }

  /** A joined header splits back into exactly its fields. */
  lemma SplitJoinFields(r: Fields)
    requires ':' !in r.hash && ':' !in r.count && ':' !in r.index
    requires IsNumeral(r.count) && IsNumeral(r.index)
    ensures WellFormed(JoinFields(r))
    ensures SplitFields(JoinFields(r)) == r
  {
    JoinWellFormed(r);
    JoinFieldsInjective(SplitFields(JoinFields(r)), r);
  }

  // ---------------------------------------------------------------------
  // Payload size in bytes

  /** Bytes of one character in UTF-8. */
  function Utf8Length(c: char): nat {
    var v := c as int;
    if v < 0x80 then 1 else if v < 0x800 then 2 else if v < 0x10000 then 3 else 4
  }

  function ByteLength(s: string): nat
    decreases |s|
  {
    if |s| == 0 then 0 else Utf8Length(s[0]) + ByteLength(s[1..])
  }

  lemma {:induction false} ByteLengthRepeat(n: nat, c: char)
    ensures ByteLength(seq(n, _ => c)) == n * Utf8Length(c)
  {
    if n > 0 {
      assert seq(n, _ => c)[1..] == seq(n - 1, _ => c);
      ByteLengthRepeat(n - 1, c);
    }
  }

  /** The trigger function cuts by characters, so a page of 7950 two-byte
      characters is a 15900-byte payload, over PostgreSQL's 8000-byte limit. */
  lemma PageCanExceedNotifyLimit()
    ensures var msg := seq(PageSize, _ => 0xE9 as char);
      && Pages(msg)[0] == msg
      && ByteLength(Pages(msg)[0]) == 2 * PageSize
      && ByteLength(Pages(msg)[0]) >= NotifyLimit
  {
    var msg := seq(PageSize, _ => 0xE9 as char);
    assert Pages(msg)[0] == msg[0..PageSize];
    assert msg[0..PageSize] == msg;
    ByteLengthRepeat(PageSize, 0xE9 as char);
  }

  /** The longest prefix of `s` that fits in `budget` bytes. */
  function FitPrefix(s: string, budget: nat): (k: nat)
    ensures k <= |s| && ByteLength(s[..k]) <= budget
    ensures k < |s| ==> ByteLength(s[..k + 1]) > budget
    decreases |s|
  {
    if |s| == 0 || Utf8Length(s[0]) > budget then
      assert |s| > 0 ==> s[..1][1..] == [];
      0
    else
      var k' := FitPrefix(s[1..], budget - Utf8Length(s[0]));
      assert s[..k' + 1][1..] == s[1..][..k'];
      assert k' < |s[1..]| ==> s[..k' + 2][1..] == s[1..][..k' + 1];
      k' + 1
  }

  /** Splitting by bytes: each page is the longest prefix of the rest that
      fits in 7950 bytes, so no character is cut. */
  function BytePages(msg: string): (pages: seq<string>)
    ensures |pages| >= 1
    ensures forall p :: 0 <= p < |pages| ==> ByteLength(pages[p]) <= PageSize
    ensures Concat(pages) == msg
    decreases |msg|
  {
    if ByteLength(msg) <= PageSize then
      assert [msg][1..] == [];
      [msg]
    else
      var k := FitPrefix(msg, PageSize);
      assert k >= 1 by {
        assert |msg| > 0;
        assert msg[..1][1..] == [];
        assert ByteLength(msg[..1]) == Utf8Length(msg[0]);
      }
      var rest := BytePages(msg[k..]);
      assert ([msg[..k]] + rest)[1..] == rest;
      [msg[..k]] + rest
  }
}
